=== FILE: README.md ===
# Pandora for Business zone controller: a Dafny model

This project models the core of the Home Assistant integration for a
Pandora for Business zone controller.

**Two clients.**
- `PandoraClient` is the blocking client.
- `PandoraBusinessAPI` is the async client.

Both log in with a form post and keep the `sessionId` and `rememberMe`
cookies. When those tokens change, they notify a registered callback. Before
every command they check the session and log in again when it is not valid.
Each of the six zone commands is one POST to `<host>/cmd`, and the reply is
wrapped in a `{status: {code}, data}` envelope. The async client also manages
the lifetime of its HTTP session. It raises `PandoraBusinessAuthError` for a
failed login and `PandoraBusinessAPIError` for a failed command.

**Consumers.**
- The remote (`PandoraBusinessRemote`) keeps a string playback state on top of
  the blocking client.
- The media-player entity (`PandoraBusinessPlayerMediaPlayer`) is built on the
  async client.
- The device actions list, validate and run media-player automations.
- The utilities validate a host name or IP address, and give a sort key that
  puts `None` first.

**How operations are modelled.** Every operation is a pure function. It takes
the old record and what the outside world answered, and returns three things:
- the new record;
- the effects, in order: the probe, the login post, command posts, callback
  runs, and opening or closing the HTTP session;
- the value it returned or the exception it raised.

The outside world's answers are:
- a login reply, which is a transport failure or a cookie map;
- a command reply, which is a transport failure or a decoded JSON body;
- whether the session probe succeeded;
- for the remote and the entity, the results of the client calls they make.

**Python semantics.** These are written out where the code relies on them:
truthiness, `in`, `[]` and `.get` on JSON values and the errors they raise,
iteration, `str.split`, `x or y`, and tuple ordering.

Modules:
- `Wrappers`: `Option` and `Result`.
- `PyJson`: JSON values and Python's access to them.
- `Protocol`: requests, the reply envelope and effects.
- `Session`: the session logic both clients share.
- `PandoraClient`: the blocking client.
- `BusinessApi`: the async client and its exception classes.
- `Remote`: the remote.
- `Player`: the media-player entity.
- `Utils`: the utilities.
- `DeviceAction`: the device actions.

Paths below are relative to the repository root.

**Two behaviours worth knowing.**
- The entity replaces its track and source only when the payload carries a
  truthy one; otherwise it keeps the old ones.
- In the blocking client a login transport failure is whatever
  `raise_for_status` raises, and the model keeps it apart from a missing
  session id.

## Model

| member | source | states |
|---|---|---|
| Protocol.StripTrailingSlashes | custom_components/pandora_business_player/pandora_client.py:13 | the stored host is the longest prefix of the given host that does not end in '/', and only '/' characters are removed |
| Protocol.StripTrailingSlashesUnique | custom_components/pandora_business_player/pandora_client.py:13 | every '/'-only trimming that leaves no trailing '/' is the stripped host, and stripping is idempotent |
| Protocol.Headers | custom_components/pandora_business_player/pandora_client.py:28-36 | every request claims the host as its Origin and the host plus the page as its Referer |
| Protocol.LoginRequestFor | custom_components/pandora_business_player/pandora_client.py:67-85 | the login posts to `<host>/login` exactly the fields user, password and rememberMe="true", with the login page as Referer |
| Protocol.CommandRequest | custom_components/pandora_business_player/pandora_client.py:106-224 | every command posts to `<host>/cmd` with the given cookies, the host as Origin and the zone page as Referer, and with each command's own query and form: getAll with zone 1 sorted by CREATION_DATE/NONE, set with zone 1 and the style id, getStatus and resume with zone 1, skip with zone 1 and step 1, and pause with operationId "0" in the query and zone 1 |
| Protocol.RequestNamesItsCommand | custom_components/pandora_business_player/pandora_client.py:106-224 | reading a request back gives the command it was built for, with its station id, so no two commands share a request |
| Protocol.Unwrap | custom_components/pandora_business_player/pandora_client.py:123-127 | a reply is accepted only when `status.code` is "OK"; a payload comes back exactly for the two reading commands; a non-"OK" failure carries the reply's status object; a body without a `status` fails with the error that lookup raises |
| Protocol.Interpret | custom_components/pandora_business_player/pandora_client.py:111-127 | a transport failure is a command failure, and only a body can succeed |
| Protocol.OkStatusYieldsPayload | custom_components/pandora_business_player/pandora_client.py:106-224 | on any body whose status code is "OK": the status query succeeds exactly when `data` is present and yields it, the station list exactly when `data.styles` is present and yields it, the control commands yield nothing, and any failure is a missing-field error |
| Protocol.NonOkStatusFails | custom_components/pandora_business_player/pandora_client.py:123-126 | on any body whose status code is present and not "OK", every command fails with that body's status object |
| Session.Cookies | custom_components/pandora_business_player/pandora_client.py:38-45 | a cookie is sent exactly when its token is truthy, and it carries that token |
| Session.NewCore | custom_components/pandora_business_player/pandora_client.py:11-22 | a new client keeps the credentials, strips the host, holds no token and has no callback |
| Session.RegisterCallback | custom_components/pandora_business_player/pandora_client.py:24-26 | registering the callback changes nothing else |
| Session.UpdateSession | custom_components/pandora_business_player/pandora_client.py:59-65 | afterwards the given tokens are held; the callback runs once exactly when one is registered and the tokens changed |
| Session.UpdateSessionIdempotent | custom_components/pandora_business_player/pandora_client.py:59-65 | repeating an update changes nothing and runs no callback |
| Session.JudgeLogin | custom_components/pandora_business_player/pandora_client.py:86-94 | a login fails on a transport failure or when there is no non-empty sessionId cookie; otherwise it yields that id and the rememberMe cookie if one came back |
| Session.Login | custom_components/pandora_business_player/pandora_client.py:67-97 | exactly one login post comes first; a failure leaves the state unchanged; a success holds the judged tokens and runs the callback only if they changed |
| Session.RepeatedLoginNotifiesOnce | custom_components/pandora_business_player/pandora_client.py:59-97 | a second login with the same reply changes nothing and runs no callback |
| Session.CheckSession | custom_components/pandora_business_player/pandora_client.py:47-57 | the session counts as valid exactly when a session id is held and the probe succeeds; the probe is sent only when an id is held |
| Session.Exchange | custom_components/pandora_business_player/pandora_client.py:106-127 | one command post with the held cookies; the held tokens never change; a transport failure is reported |
| PandoraClient.NewClient | custom_components/pandora_business_player/pandora_client.py:11-22 | a new client holds no cookies and no callback, and its host is stripped |
| PandoraClient.EnsureSession | custom_components/pandora_business_player/pandora_client.py:100-104 | it logs in exactly when the session check answers False; afterwards a session id is held, unless the login failed and left the state unchanged |
| PandoraClient.Run | custom_components/pandora_business_player/pandora_client.py:106-224 | a command post always carries a session id and is the last effect; a failed `ensure_session` is re-raised before any post; after a successful one the last effect is the command's request with the held cookies, the session is the one `ensure_session` left, and the outcome is the interpreted reply, so a transport failure or a non-"OK" status raises; a payload comes back exactly for the reading commands |
| PandoraClient.NoSessionLogsInFirst | custom_components/pandora_business_player/pandora_client.py:100-127 | with no session held, exactly one login precedes the command post, which carries the new cookies |
| PandoraClient.NonOkStatusRaises | custom_components/pandora_business_player/pandora_client.py:106-224 | whenever `ensure_session` succeeds, by the held session or by a new login, any reply whose status code is not "OK" makes every command raise with that reply's status object |
| PandoraClient.TransportFailureKeepsSession | custom_components/pandora_business_player/pandora_client.py:106-127 | a transport failure of the command always raises: with the command failure once `ensure_session` succeeded, else with the login failure; the session is the one `ensure_session` left |
| PandoraClient.OkStatusReturnsPayload | custom_components/pandora_business_player/pandora_client.py:106-224 | whenever `ensure_session` succeeds, any reply whose status code is "OK" makes the status query return `data`, the station list return `data.styles`, and the control commands return nothing |
| BusinessApi.ApiHandlerCatchesAuthErrors | custom_components/pandora_business_player/api.py:12-16 | a handler for `PandoraBusinessAPIError` catches exactly the API and auth errors; a handler for the auth error catches only auth errors |
| BusinessApi.NewApi | custom_components/pandora_business_player/api.py:21-31 | a new async client has a stripped host, no cookies, no callback and no HTTP session |
| BusinessApi.Setup | custom_components/pandora_business_player/api.py:33-36 | afterwards an HTTP session exists; one is opened only when none existed |
| BusinessApi.Cleanup | custom_components/pandora_business_player/api.py:38-42 | afterwards no HTTP session exists; an existing one is closed; the tokens are kept |
| BusinessApi.LifecycleIdempotent | custom_components/pandora_business_player/api.py:33-42 | setting up twice and cleaning up twice do nothing the second time; setting up after a cleanup opens a new session |
| BusinessApi.Login | custom_components/pandora_business_player/api.py:79-122 | the HTTP session is opened first if missing; exactly one login post, the login request for the held host, username and password; each failure is an auth error and leaves the tokens unchanged; success replaces only the tokens, with the judged cookies, and runs a registered callback exactly once when they change and never otherwise |
| BusinessApi.EnsureSession | custom_components/pandora_business_player/api.py:67-128 | it logs in exactly when the check answers False, and the modelled check fails without an HTTP session, so a closed client always logs in again and re-opens one; a login posts the request for the held host and credentials; without a login nothing changes; success leaves a session id and an HTTP session, and after a login only the tokens differ; a registered callback runs once exactly when the tokens change; a failure is an auth error |
| BusinessApi.Translate | custom_components/pandora_business_player/api.py:148-154 | transport and status failures become `PandoraBusinessAPIError`; a missing field escapes as the raw Python error |
| BusinessApi.Run | custom_components/pandora_business_player/api.py:130-266 | a command post always carries a session id and is the last effect; a failed `ensure_session` is re-raised and sends no command; after a successful one the client keeps the state `ensure_session` left, the last effect is the request for this command to the held host with the held cookies, sent through an open HTTP session, and its outcome is the interpreted reply, translated |
| BusinessApi.LoginFailuresAreAuthErrors | custom_components/pandora_business_player/api.py:110-122 | a transport failure and a missing session id are each an auth error, which the API-error handler catches |
| BusinessApi.CommandFailuresAreApiErrors | custom_components/pandora_business_player/api.py:130-266 | whenever `ensure_session` succeeds, a transport failure and any reply whose status code is not "OK" are each `PandoraBusinessAPIError` carrying the failure, in every command |
| BusinessApi.OkStatusReturnsPayload | custom_components/pandora_business_player/api.py:130-266 | whenever `ensure_session` succeeds, any reply whose status code is "OK" makes the reading commands return their payload and the control commands nothing |
| BusinessApi.CommandAfterCleanupLogsIn | custom_components/pandora_business_player/api.py:38-128 | after a cleanup, a command logs in exactly once and re-opens the HTTP session; when that login succeeds, only the tokens change and the last effect is this command's request to the same host with the new cookies |
| Remote.NewRemote | custom_components/pandora_business/remote.py:14-25 | the remote starts idle, not set up and with no station, and its client's callback is registered |
| Remote.Control | custom_components/pandora_business/remote.py:52-93 | a control call succeeds exactly when both client calls succeed and then sets the target state; a failure is re-raised and the state is kept |
| Remote.Play | custom_components/pandora_business/remote.py:52-61 | play succeeds exactly when both client calls do and then leaves "playing"; a failure keeps the record; the client's play is sent only after ensure_session succeeded |
| Remote.PauseRemote | custom_components/pandora_business/remote.py:63-72 | pause succeeds exactly when both client calls do and then leaves "paused"; a failure keeps the record |
| Remote.Stop | custom_components/pandora_business/remote.py:74-83 | stop sends only ensure_session and the client's pause, and on success leaves "stopped"; a failure keeps the record |
| Remote.NextTrack | custom_components/pandora_business/remote.py:85-93 | next_track sends skip_song after ensure_session and never changes the record |
| Remote.ControlOutcomes | custom_components/pandora_business/remote.py:52-93 | play, pause and stop reach "playing", "paused" and "stopped"; stop sends what pause sends; next_track changes nothing |
| Remote.PlaybackTag | custom_components/pandora_business/remote.py:107-114 | "playing" and "paused" map to themselves, and every other value maps to "stopped" |
| Remote.StationStep | custom_components/pandora_business/remote.py:103-104 | on a dict, the station becomes the payload's "station" entry when there is one and is kept otherwise; a non-dict raises `TypeError` unless `in` answers False; nothing but the station changes |
| Remote.PlaybackStep | custom_components/pandora_business/remote.py:106-114 | the playback block changes only the state; on a dict without a "playback" entry it changes nothing; with a dict entry the state becomes the tag of its "state" (default "stopped"); a non-dict entry raises `AttributeError`; a non-dict payload raises `TypeError` unless `in` answers False |
| Remote.Update | custom_components/pandora_business/remote.py:95-120 | `device_setup` is true exactly when nothing was raised; a client failure is re-raised with the record kept; the calls are ensure_session, then get_playback_info unless ensure_session raised |
| Remote.OnSessionUpdate | custom_components/pandora_business/remote.py:27-30 | after the callback `device_setup` is true exactly when nothing was raised; it makes the update's client calls; a failure keeps the playback state |
| Remote.SessionCallbackIsUpdate | custom_components/pandora_business/remote.py:27-30 | the callback's own `device_setup = True` is always overwritten, so the callback is exactly an update |
| Remote.UpdateMapsPlayback | custom_components/pandora_business/remote.py:106-116 | with a playback dict, the update succeeds and sets "playing" or "paused" exactly on those values and "stopped" otherwise |
| Remote.UpdateTouchesOnlyPresentEntries | custom_components/pandora_business/remote.py:102-116 | on any dict payload the station becomes the "station" entry exactly when there is one, even if the playback block then raises; without a playback entry the update succeeds and keeps the state |
| Player.Handle | custom_components/pandora_business_player/media_player.py:90-92 | the except clause catches exactly the API and auth errors; anything else escapes with the record as it stood |
| Player.CheckVolume | custom_components/pandora_business_player/media_player.py:74 | reading the volume raises `TypeError` exactly when the volume is present and not numeric |
| Player.TrackStep | custom_components/pandora_business_player/media_player.py:78-83 | the track block changes only the current track: a falsy or missing track leaves the entity as it was, a truthy dict replaces the track with its title, artist and album (`None` where missing), and a truthy non-dict raises `AttributeError` |
| Player.StationNames | custom_components/pandora_business_player/media_player.py:87 | the source list is every station's name in order, or the error of the first station without one |
| Player.SourceStep | custom_components/pandora_business_player/media_player.py:88-89 | the station block changes only the source: a falsy or missing station leaves the entity as it was, a truthy dict sets the source to its "name" (`None` when missing), and a truthy non-dict raises `AttributeError` |
| Player.Update | custom_components/pandora_business_player/media_player.py:67-92 | the calls are get_playback_info, then possibly get_stations; only non-API errors escape; an update that raises nothing leaves the entity OFF only if a client call failed |
| Player.ReadInfo | custom_components/pandora_business_player/media_player.py:70-83 | reading the playback payload either raises a Python error or goes on to the station fetch |
| Player.ReadStations | custom_components/pandora_business_player/media_player.py:86-92 | a failed station fetch turns the entity off and keeps the rest; a successful one keeps the state |
| Player.UpdateReadsPayload | custom_components/pandora_business_player/media_player.py:67-89 | on well-formed payloads: PLAYING exactly when isPlaying is truthy; the source list is the names in order; a truthy track or station replaces the old one, and otherwise it is kept |
| Player.StationErrorKeepsTrack | custom_components/pandora_business_player/media_player.py:78-92 | an API error from the station fetch turns the entity off but keeps the track just read |
| Player.MediaTitle | custom_components/pandora_business_player/media_player.py:94-99 | the stored track's title, and `None` while no track is stored |
| Player.MediaArtist | custom_components/pandora_business_player/media_player.py:101-106 | the stored track's artist, and `None` while no track is stored |
| Player.MediaAlbumName | custom_components/pandora_business_player/media_player.py:108-113 | the stored track's album, and `None` while no track is stored |
| Player.MediaPropertiesFollowTrack | custom_components/pandora_business_player/media_player.py:94-113 | title, artist and album are `None` at first, then the fields of the last truthy track |
| Player.Control | custom_components/pandora_business_player/media_player.py:115-166 | one command; on success the target state; a caught error changes nothing; only non-API errors escape |
| Player.MediaPlay | custom_components/pandora_business_player/media_player.py:115-121 | sends play; on success PLAYING; a failure changes nothing, and only a non-API error escapes |
| Player.MediaPause | custom_components/pandora_business_player/media_player.py:123-129 | sends pause; on success PAUSED; a failure changes nothing, and only a non-API error escapes |
| Player.MediaStop | custom_components/pandora_business_player/media_player.py:131-137 | sends pause; on success OFF; a failure changes nothing, and only a non-API error escapes |
| Player.MediaNextTrack | custom_components/pandora_business_player/media_player.py:161-166 | sends skip_song and never changes the record; only a non-API error escapes |
| Player.ControlOutcomes | custom_components/pandora_business_player/media_player.py:115-166 | play, pause and stop reach PLAYING, PAUSED and OFF; stop sends pause; next track changes nothing |
| Player.FindStation | custom_components/pandora_business_player/media_player.py:153-157 | finds the first station whose name is the source, none only when no name matches, or the error of a nameless station before any match |
| Player.SelectSource | custom_components/pandora_business_player/media_player.py:149-159 | the source changes only to the requested name, and only after set_station succeeded; a readable station list that names no such station leads to the station fetch alone, with nothing changed and nothing raised |
| Player.SelectListedSource | custom_components/pandora_business_player/media_player.py:149-159 | selecting a listed name sends the first matching station's id and sets the source |
| Player.SelectUnknownSourceIsNoop | custom_components/pandora_business_player/media_player.py:149-159 | selecting an unlisted name only fetches the stations and changes nothing |
| Player.SelectedSourceIsListed | custom_components/pandora_business_player/media_player.py:149-157 | a source selected against the stations the last update read is in the source list |
| Utils.Split | custom_components/pandora_business/utils.py:18 | splitting yields at least one part and no part contains the separator |
| Utils.SplitJoin | custom_components/pandora_business/utils.py:18 | split and join are inverse, in both directions |
| Utils.IpVersion | custom_components/pandora_business/utils.py:15 | version 4 exactly for dotted quads, 6 exactly for IPv6 addresses, and a ValueError otherwise |
| Utils.HostValid | custom_components/pandora_business/utils.py:12-18 | as written: every IPv4 address passes and every IPv6 address fails |
| Utils.HostValidIntended | custom_components/pandora_business/utils.py:12-18 | every IP address passes; any other host passes exactly when its labels are valid |
| Utils.Ipv4PassesLabels | custom_components/pandora_business/utils.py:15-18 | a dotted quad also passes the label check |
| Utils.Ipv6FailsLabels | custom_components/pandora_business/utils.py:15-18 | an IPv6 address fails the label check |
| Utils.IpFamiliesDisjoint | custom_components/pandora_business/utils.py:15 | no host is both IPv4 and IPv6, so every IPv6 address reports version 6 |
| Utils.HostValidIsLabelCheck | custom_components/pandora_business/utils.py:12-18 | as written, `host_valid` is exactly the label check; the intended version accepts the label-valid hosts and the IPv6 addresses |
| Utils.LoopbackIpv6Rejected | custom_components/pandora_business/utils.py:15 | "::1" is a valid IPv6 address that the code as written rejects and the intended version accepts |
| Utils.OutOfRangeQuadPassesAsHostname | custom_components/pandora_business/utils.py:14-18 | "256.1.1.1" is not an IP address but passes as a host name |
| Utils.EmptyLabelsRejected | custom_components/pandora_business/utils.py:18 | the empty host, and a host with a leading or trailing '.', fail |
| Utils.NoneSortsFirst | custom_components/pandora_business/utils.py:20-28 | `None` sorts before every value, two `None`s tie, and values keep their own order |
| Utils.KeyOrderIsStrict | custom_components/pandora_business/utils.py:20-28 | if the values' order is strict, so is the key order |
| DeviceAction.ParseType | custom_components/pandora_business/device_action.py:37-43 | a parsed type names the string it came from |
| DeviceAction.ParseTypeName | custom_components/pandora_business/device_action.py:37-43 | parsing a type's name gives the type back |
| DeviceAction.EntryActionsOffered | custom_components/pandora_business/device_action.py:104-128 | an entry contributes exactly the actions of its supported types, naming the device, the integration and the entry id |
| DeviceAction.EntryActionsOrdered | custom_components/pandora_business/device_action.py:111-128 | an entry contributes each type at most once, in the order pause, play, next_track, select_source, play_media; nothing exactly when it is not listed; a listed entry always ends with select_source and play_media |
| DeviceAction.EntryActionsOf | custom_components/pandora_business/device_action.py:104-128 | the loop body appends, for a listed entry, exactly the actions of its offered types on its registry id, in rank order and ending with select_source and play_media, and nothing for any other entry |
| DeviceAction.GetActions | custom_components/pandora_business/device_action.py:88-129 | the listed actions are the entries' actions entry by entry, and an action is listed exactly when some listed media-player entry with its id is offered its type |
| DeviceAction.OfferedActions | custom_components/pandora_business/device_action.py:88-129 | an action is listed exactly when a listed media-player entry with that id supports its type |
| DeviceAction.RequiredKeys | custom_components/pandora_business/device_action.py:46-65 | every schema requires device_id, domain, type and entity_id; the two extended schemas add source or media_content_id |
| DeviceAction.Validate | custom_components/pandora_business/device_action.py:68-85 | an accepted configuration has a known type and all its required keys, and comes back without `metadata` |
| DeviceAction.PaddedBooleanAccepted | custom_components/pandora_business/device_action.py:46-50 | `continue_on_error` accepts a boolean word with any surrounding whitespace, since `cv.boolean` strips it |
| DeviceAction.ValidateRejects | custom_components/pandora_business/device_action.py:68-85 | validation fails with a KeyError exactly when there is no type, and with a schema error exactly when the schema is violated |
| DeviceAction.CallAction | custom_components/pandora_business/device_action.py:132-164 | each type calls its media-player service on the entity, with the content id and the domain for play_media and the source for select_source; a missing key raises KeyError; an unknown type leaves the service unbound |
| DeviceAction.Capabilities | custom_components/pandora_business/device_action.py:167-184 | the extra field asked for is the key the type's schema adds beyond the base keys, and none for the other types |
| DeviceAction.CompletedConfigKeys | custom_components/pandora_business/device_action.py:167-184 | an offered action with its extra field filled in has exactly the keys its schema requires |
| DeviceAction.OfferedActionsRun | custom_components/pandora_business/device_action.py:110-164 | every offered action, once completed with its extra field, passes the schema of its type and calls its type's service on its entity |
| DeviceAction.UnknownTypeRejected | custom_components/pandora_business/device_action.py:146-164 | an unknown type fails validation, and running it anyway leaves the service unbound |

## Left out

- HTTP transport, JSON decoding, TLS settings and the 10-second timeouts are
  not modelled. Each reply is an input: a transport failure or a decoded
  body. In the blocking client every way `requests` can fail counts as one
  transport failure.
- BusinessApi.Translate: in the async client a transport failure stands
  only for an `aiohttp` `ClientError`, the one exception its `except`
  clauses catch. A body that is not JSON (`json.JSONDecodeError`) and a
  timeout (`asyncio.TimeoutError`) are not `ClientError`s: they escape the
  client untranslated and also get past the entity's handler. The model has
  no reply for them, so BusinessApi.LoginFailuresAreAuthErrors,
  BusinessApi.CommandFailuresAreApiErrors and Player.Handle say nothing
  about them.
- `_check_session` probes with `get_playback_info`, and that call itself
  calls `ensure_session` and `_check_session` again. The model takes the
  probe's outcome as an input (`probeOk`) and does not unfold this recursion.
  In the async client the model lets the probe succeed only while an HTTP
  session is open. This is a modelling choice: in the code the probe's
  nested `ensure_session` may log in and re-open the session first, so its
  outcome depends on the recursion the model does not unfold.
- Async scheduling and concurrency are not modelled. Each coroutine runs to
  completion as one step.
- Logging is not modelled.
- The write-only `_logged_in` flag is not modelled.
- The remote's `_host`, `_device_type` and `_stations` fields are not
  modelled. `_host` only appears in log messages. `_device_type` is read only
  by the `device_type` property, which always returns the constant
  "pandora_business". `_stations` is never read.
- Cookies are held as strings.
- BusinessApi.Login: `aiohttp` hands back cookie `Morsel` objects, which are
  always truthy. The model judges them by their string value, as the
  blocking client does, so an empty `sessionId` cookie fails here while the
  async client would accept it. `_update_session` also compares the
  `Morsel` objects themselves, attributes such as `expires` included, so a
  re-login that returns the same id with a new expiry runs the callback in
  the code; the model compares values only and runs none.
- Player.Update: the volume and mute values are not kept, because floats are
  not modelled. Only the `TypeError` of a non-numeric volume is modelled.
- `async_set_volume_level` and `async_mute_volume` only store a value, so
  they are not modelled.
- Remote.Update: the remote imports a `pandora_client` module from its own
  package. That file is not part of this model. The model assumes it has the
  interface of the player package's blocking client.
- The client calls inside each remote or entity method are not unfolded.
  Their outcomes are inputs, so they include a client's own
  `ensure_session`.
- A callback that runs during a login is not modelled. It would re-enter the
  remote's `update`, and the model only records that the callback ran.
- Utils.LabelsValid: Python's `\d` also matches non-ASCII digits. The model
  accepts ASCII digits only.
- Utils.Ipv6Address: an embedded dotted quad stands for two groups. The
  model represents them as "0", because only validity matters.
- The scope-id rules beyond "non-empty" and the byte-length limits of
  `ipaddress` are not modelled.
- DeviceAction.OfferedActionsRun: the model's validation returns the
  configuration minus `metadata`. The real `async_validate_entity_schema`
  also resolves a registry id into an entity id, which can rewrite
  `entity_id`, so "validates unchanged" is not promised.
- DeviceAction.Validate: `.lower()` is modelled on ASCII letters only. No
  non-ASCII character lowers to a letter of the ten boolean words, so
  acceptance is the same.
- DeviceAction.Validate: entity ids are not checked. The model does not
  model `cv.entity_id_or_uuid` or the registry lookup that
  `async_validate_entity_schema` does.
- DeviceAction.Validate: configuration values are strings only, so the type
  coercions of `cv.string` and the template form of `enabled` are not
  modelled. The schema returns `continue_on_error` as a bool and `enabled`
  as a bool or a template, so the real validated configuration does not
  carry the input strings; the model promises the input minus `metadata`.
- DeviceAction.Validate: every schema error is collapsed into one
  `SchemaInvalid`.
- DeviceAction.GetActions: an entry's supported features are an input set.
  Looking them up in the state machine is not modelled.
- The service call that `async_call_action_from_config` makes is not
  modelled. The model returns the call it would make.
- Home Assistant setup is not modelled. This covers config flows, entity
  classes, diagnostics and the other `media_player.py` in the
  `pandora_business` package.

## Findings

| source | as written | input that shows it | evidently intended | confidence | as-written member | corrected member |
|---|---|---|---|---|---|---|
| custom_components/pandora_business/utils.py:15 | `ipaddress.ip_address(host).version == (4 or 6)`; `(4 or 6)` evaluates to 4 | "::1" (and every other IPv6 address) is rejected as a host | `version in (4, 6)`: any IP address is valid | not executed | Utils.LoopbackIpv6Rejected | Utils.HostValidIntended |

=== FILE: business_api.dfy ===
/**
 * The async client `PandoraBusinessAPI`: the same session core as the
 * blocking client, plus the lifecycle of its HTTP client session
 * (`async_setup` / `async_cleanup`) and the typed errors it raises:
 * `PandoraBusinessAuthError` for every failed login and
 * `PandoraBusinessAPIError` for every failed command, the former a
 * subclass of the latter.
 */
module BusinessApi {
  import opened Wrappers
  import opened PyJson
  import opened Protocol
  import opened Session

  /** The exception classes a call can raise. */
  datatype ExceptionClass =
    | ExceptionBase
    | ApiErrorClass        // PandoraBusinessAPIError(Exception)
    | AuthErrorClass       // PandoraBusinessAuthError(PandoraBusinessAPIError)
    | LookupErrorClass
    | KeyErrorClass
    | TypeErrorClass
    | AttributeErrorClass

  /** The class each class derives from. */
  function Base(cls: ExceptionClass): Option<ExceptionClass> {
    match cls
    case ExceptionBase => None
    case ApiErrorClass => Some(ExceptionBase)
    case AuthErrorClass => Some(ApiErrorClass)
    case LookupErrorClass => Some(ExceptionBase)
    case KeyErrorClass => Some(LookupErrorClass)
    case TypeErrorClass => Some(ExceptionBase)
    case AttributeErrorClass => Some(ExceptionBase)
  }

  /** How many steps up the hierarchy reach `Exception`. */
  function Depth(cls: ExceptionClass): nat {
    match cls
    case ExceptionBase => 0
    case AuthErrorClass => 2
    case KeyErrorClass => 2
    case _ => 1
  }

  /** Python's `issubclass(cls, base)`. */
  predicate IsSubclass(cls: ExceptionClass, base: ExceptionClass)
    decreases Depth(cls)
  {
    cls == base || (Base(cls).Some? && IsSubclass(Base(cls).value, base))
  }

  /** What a call of the async client raises. */
  datatype ApiException =
    | ApiError(detail: CommandFailure)      // PandoraBusinessAPIError
    | AuthError(reason: LoginFailure)       // PandoraBusinessAuthError
    | Unhandled(error: PyError)             // a Python error that escapes untranslated

  function ClassOf(e: ApiException): ExceptionClass {
    match e
    case ApiError(_) => ApiErrorClass
    case AuthError(_) => AuthErrorClass
    case Unhandled(KeyError(_)) => KeyErrorClass
    case Unhandled(TypeError) => TypeErrorClass
    case Unhandled(AttributeError) => AttributeErrorClass
  }

  /** Whether `except handler:` catches `e`. */
  predicate Catches(handler: ExceptionClass, e: ApiException) {
    IsSubclass(ClassOf(e), handler)
  }

  /** A handler for `PandoraBusinessAPIError` catches the API errors and the
      authentication errors and nothing else; one for
      `PandoraBusinessAuthError` catches only the authentication errors. */
  lemma ApiHandlerCatchesAuthErrors(e: ApiException)
    ensures Catches(ApiErrorClass, e) <==> e.ApiError? || e.AuthError?
    ensures Catches(AuthErrorClass, e) <==> e.AuthError?
    ensures Catches(ExceptionBase, e)
  {
  }

  /** The client: the shared session core and whether its aiohttp client
      session exists. */
  datatype Api = Api(core: Core, http: bool)

  datatype ApiStep<+T> = ApiStep(api: Api, effects: seq<Effect>, result: Result<T, ApiException>)

  /** The constructor: like the blocking client's, and no HTTP session yet. */
  function NewApi(host: string, username: string, password: string): (a: Api)
    ensures a.core.host == StripTrailingSlashes(host)
    ensures a.core.username == username && a.core.password == password
    ensures Cookies(a.core.creds) == map[] && !a.core.callback
    ensures !a.http
  {
    Api(NewCore(host, username, password), false)
  }

  /** `async_setup`: afterwards an HTTP session exists, and one is created
      only when none existed. */
  function Setup(a: Api): (r: ApiStep<()>)
    ensures r.api == a.(http := true) && r.result.Ok?
    ensures r.effects == [] <==> a.http
    ensures forall e :: e in r.effects ==> e == OpenHttp
  {
    if !a.http then ApiStep(a.(http := true), [OpenHttp], Ok(())) else ApiStep(a, [], Ok(()))
  }

  /** `async_cleanup`: afterwards no HTTP session exists, an existing one
      has been closed, and the held credentials are kept. */
  function Cleanup(a: Api): (r: ApiStep<()>)
    ensures r.api == a.(http := false) && r.result.Ok?
    ensures r.effects == [] <==> !a.http
    ensures forall e :: e in r.effects ==> e == CloseHttp
  {
    if a.http then ApiStep(a.(http := false), [CloseHttp], Ok(())) else ApiStep(a, [], Ok(()))
  }

  /** Setting up twice is setting up once; cleaning up twice is cleaning up
      once; setting up after a clean-up opens a fresh session. */
  lemma {:induction false} LifecycleIdempotent(a: Api)
    ensures Setup(Setup(a).api) == ApiStep(Setup(a).api, [], Ok(()))
    ensures Cleanup(Cleanup(a).api) == ApiStep(Cleanup(a).api, [], Ok(()))
    ensures Setup(Cleanup(a).api).effects == [OpenHttp]
  {
    assert Setup(a).api.http;
    assert !Cleanup(a).api.http;
  }

  /** `login`: sets up the HTTP session first when none exists, then runs
      the shared login. Both ways it can fail, a transport error and a
      reply without a session id, raise `PandoraBusinessAuthError`. */
  function Login(a: Api, reply: LoginReply): (r: ApiStep<()>)
    ensures r.api.http
    ensures !a.http ==> |r.effects| >= 2 && r.effects[0] == OpenHttp && r.effects[1].LoginPost?
    ensures a.http ==> |r.effects| >= 1 && r.effects[0].LoginPost?
    ensures CountLogins(r.effects) == 1
    ensures r.result.Err? ==> r.api.core == a.core && r.result.error.AuthError?
    ensures r.result.Err? ==> JudgeLogin(reply) == Err(r.result.error.reason)
    ensures r.result.Ok? ==> Present(r.api.core.creds.sessionId) && JudgeLogin(reply) == Ok(r.api.core.creds)
    ensures r.result.Ok? ==> r.api.core == a.core.(creds := JudgeLogin(reply).value)
    ensures |r.effects| > (if a.http then 0 else 1)
            && r.effects[if a.http then 0 else 1] == LoginPost(LoginRequestFor(a.core.host, a.core.username, a.core.password))
    ensures CountCallbacks(r.effects) == (if r.result.Ok? && a.core.callback && r.api.core.creds != a.core.creds then 1 else 0)
    ensures forall e :: e in r.effects ==> e.OpenHttp? || e.LoginPost? || e.SessionCallback?
    ensures forall e :: e in r.effects ==> !e.CommandPost?
  {
    var setup := if !a.http then Setup(a) else ApiStep(a, [], Ok(()));
    var l := Session.Login(setup.api.core, reply);
    CountsAdd(setup.effects, l.effects);
    assert CountLogins(setup.effects) == 0 && CountCallbacks(setup.effects) == 0;
    var result := match l.result
      case Ok(_) => Ok(())
      case Err(f) => Err(AuthError(f));
    ApiStep(Api(l.core, true), setup.effects + l.effects, result)
  }

  /** `ensure_session`: logs in exactly when `_check_session` answers False.
      The probe's outcome depends on a nested `ensure_session` that the
      model does not unfold; the model lets the probe succeed only while an
      HTTP session is open, so a session that ends well always has one. */
  function EnsureSession(a: Api, probeOk: bool, login: LoginReply): (r: ApiStep<()>)
    ensures CountLogins(r.effects) == (if CheckSession(a.core, probeOk && a.http).result.value then 0 else 1)
    ensures !a.http ==> CountLogins(r.effects) == 1 && OpenHttp in r.effects
    ensures r.result.Ok? ==> Present(r.api.core.creds.sessionId) && r.api.http
    ensures CountLogins(r.effects) == 0 ==> r.api == a
    ensures r.result.Err? ==> r.api.core == a.core && r.result.error.AuthError?
    ensures r.result.Ok? && CountLogins(r.effects) == 1 ==> JudgeLogin(login).Ok? && r.api.core == a.core.(creds := JudgeLogin(login).value)
    ensures CountLogins(r.effects) == 1 ==> LoginPost(LoginRequestFor(a.core.host, a.core.username, a.core.password)) in r.effects
    ensures CountCallbacks(r.effects) == (if r.result.Ok? && a.core.callback && r.api.core.creds != a.core.creds then 1 else 0)
    ensures forall e :: e in r.effects ==> !e.CommandPost?
  {
    var check := CheckSession(a.core, probeOk && a.http);
    assert check.effects == [] || check.effects == [Probe];
    if check.result.value then
      ApiStep(a, check.effects, Ok(()))
    else
      AfterProbe(check.effects, Login(a, login))
  }

  /** The step `l` preceded by the probe effects `probe`. */
  function AfterProbe(probe: seq<Effect>, l: ApiStep<()>): (r: ApiStep<()>)
    requires probe == [] || probe == [Probe]
    requires forall e :: e in l.effects ==> !e.CommandPost?
    ensures r.api == l.api && r.result == l.result
    ensures CountLogins(r.effects) == CountLogins(l.effects)
    ensures CountCallbacks(r.effects) == CountCallbacks(l.effects)
    ensures forall e :: e in l.effects ==> e in r.effects
    ensures forall e :: e in r.effects ==> !e.CommandPost?
  {
    CountsAdd(probe, l.effects);
    assert CountCallbacks(probe) == 0;
    ApiStep(l.api, probe + l.effects, l.result)
  }

  /** The command failures that surface as `PandoraBusinessAPIError`: a
      transport `ClientError` and a non-"OK" status. A body that lacks a
      field the code reads raises a bare `KeyError`/`TypeError` instead. */
  function Translate(f: CommandFailure): (e: ApiException)
    ensures e.ApiError? <==> !f.Malformed?
    ensures e.ApiError? ==> e.detail == f
    ensures e.Unhandled? ==> e.error == f.error
  {
    match f
    case Malformed(err) => Unhandled(err)
    case _ => ApiError(f)
  }

  /** A command's outcome as the async client reports it. */
  function TranslateResult(res: Result<Option<Json>, CommandFailure>): (t: Result<Option<Json>, ApiException>)
    ensures res.Ok? <==> t.Ok?
    ensures res.Ok? ==> t.value == res.value
    ensures res.Err? ==> t.error == Translate(res.error)
  {
    match res
    case Ok(v) => Ok(v)
    case Err(f) => Err(Translate(f))
  }

  /** One of the six command methods: `ensure_session`, then the request
      through the HTTP session it guarantees, with a failure translated. */
  function Run(a: Api, cmd: Command, probeOk: bool, login: LoginReply, reply: Reply): (r: ApiStep<Option<Json>>)
    ensures forall e :: e in r.effects && e.CommandPost? ==> "sessionId" in e.request.cookies
    ensures forall i :: 0 <= i < |r.effects| && r.effects[i].CommandPost? ==> i == |r.effects| - 1
    ensures r.result.Ok? ==> (r.result.value.Some? <==> cmd.Reads())
    ensures r.result.Ok? ==> r.api.http
    ensures r.result.Err? && r.result.error.AuthError? ==> forall e :: e in r.effects ==> !e.CommandPost?
    ensures CountLogins(r.effects) == 0 ==> r.api == a
    ensures EnsureSession(a, probeOk, login).result.Err? ==> r.result == Err(EnsureSession(a, probeOk, login).result.error)
    ensures EnsureSession(a, probeOk, login).result.Ok? ==> r.api.http && |r.effects| > 0 && r.effects[|r.effects| - 1].CommandPost?
    ensures EnsureSession(a, probeOk, login).result.Ok? ==> r.result == TranslateResult(Interpret(cmd, reply))
    ensures EnsureSession(a, probeOk, login).result.Ok? ==>
              r.api == EnsureSession(a, probeOk, login).api
              && r.effects[|r.effects| - 1] == CommandPost(CommandRequest(r.api.core.host, Cookies(r.api.core.creds), cmd))
  {
    var ensured := EnsureSession(a, probeOk, login);
    if ensured.result.Err? then
      ApiStep(ensured.api, ensured.effects, Err(ensured.result.error))
    else
      Send(ensured, cmd, reply)
  }

  /** The request of a command method once `ensure_session` has succeeded
      with effects `ensured.effects`: one post, after all of them. */
  function Send(ensured: ApiStep<()>, cmd: Command, reply: Reply): (r: ApiStep<Option<Json>>)
    requires Present(ensured.api.core.creds.sessionId)
    requires forall e :: e in ensured.effects ==> !e.CommandPost?
    ensures r.api == ensured.api
    ensures r.result == TranslateResult(Interpret(cmd, reply))
    ensures r.result.Ok? ==> (r.result.value.Some? <==> cmd.Reads())
    ensures r.result.Err? ==> !r.result.error.AuthError?
    ensures CountLogins(r.effects) == CountLogins(ensured.effects)
    ensures |r.effects| > 0 && r.effects[|r.effects| - 1] == CommandPost(CommandRequest(r.api.core.host, Cookies(r.api.core.creds), cmd))
    ensures forall e :: e in r.effects && e.CommandPost? ==> "sessionId" in e.request.cookies
    ensures forall i :: 0 <= i < |r.effects| && r.effects[i].CommandPost? ==> i == |r.effects| - 1
  {
    var x := Exchange(ensured.api.core, cmd, reply);
    CountsAdd(ensured.effects, x.effects);
    CommandPostLast(ensured.effects, x.effects[0]);
    ApiStep(ensured.api, ensured.effects + x.effects, TranslateResult(x.result))
  }

  /** Both ways a login fails surface as `PandoraBusinessAuthError`, which a
      handler for `PandoraBusinessAPIError` catches. */
  lemma LoginFailuresAreAuthErrors(a: Api, reply: LoginReply)
    requires reply.LoginTransportFailure? || (reply.LoginCookies? && "sessionId" !in reply.cookies)
    ensures Login(a, reply).result.Err?
    ensures Login(a, reply).result.error
            == AuthError(if reply.LoginTransportFailure? then LoginTransport else NoSessionId)
    ensures Catches(ApiErrorClass, Login(a, reply).result.error)
  {
  }

  /** Whenever `ensure_session` succeeds, a transport failure of the command
      and a reply whose status code is not "OK" both surface as
      `PandoraBusinessAPIError`, carrying the failure. */
  lemma CommandFailuresAreApiErrors(a: Api, cmd: Command, probeOk: bool, login: LoginReply, body: Json)
    requires EnsureSession(a, probeOk, login).result.Ok?
    ensures Run(a, cmd, probeOk, login, ReplyTransportFailure).result == Err(ApiError(TransportFailure))
    ensures StatusNotOkay(body) ==>
              Run(a, cmd, probeOk, login, ReplyBody(body)).result
              == Err(ApiError(StatusNotOk(Index(body, "status").value)))
  {
    assert Interpret(cmd, ReplyTransportFailure) == Err(TransportFailure);
    if StatusNotOkay(body) {
      NonOkStatusFails(cmd, body);
      assert Interpret(cmd, ReplyBody(body)) == Err(StatusNotOk(Index(body, "status").value));
    }
  }

  /** Whenever `ensure_session` succeeds, a reply whose status code is "OK"
      makes the reading commands return their payload and the control
      commands nothing. */
  lemma OkStatusReturnsPayload(a: Api, cmd: Command, probeOk: bool, login: LoginReply, body: Json)
    requires EnsureSession(a, probeOk, login).result.Ok?
    requires StatusOk(body)
    ensures var r := Run(a, cmd, probeOk, login, ReplyBody(body));
            var data := Index(body, "data");
            (cmd.GetPlaybackInfo? && data.Ok? ==> r.result == Ok(Some(data.value)))
            && (cmd.GetStations? && data.Ok? && Index(data.value, "styles").Ok? ==>
                  r.result == Ok(Some(Index(data.value, "styles").value)))
            && (!cmd.Reads() ==> r.result == Ok(None))
  {
    OkStatusYieldsPayload(cmd, body);
  }

  /** After `async_cleanup` a command logs in again, whatever the held
      session id, re-opening the HTTP session first; when that login
      succeeds the command is sent, with the new cookies, to the same host. */
  lemma CommandAfterCleanupLogsIn(a: Api, cmd: Command, probeOk: bool, login: LoginReply, reply: Reply)
    ensures var r := Run(Cleanup(a).api, cmd, probeOk, login, reply);
            CountLogins(r.effects) == 1 && OpenHttp in r.effects
            && (JudgeLogin(login).Ok? ==>
                  r.api.http && r.api.core == a.core.(creds := JudgeLogin(login).value)
                  && |r.effects| > 0
                  && r.effects[|r.effects| - 1] == CommandPost(CommandRequest(a.core.host, Cookies(JudgeLogin(login).value), cmd)))
  {
    var c := Cleanup(a).api;
    assert !c.http;
    var ensured := EnsureSession(c, probeOk, login);
    assert CountLogins(ensured.effects) == 1 && OpenHttp in ensured.effects;
    var r := Run(c, cmd, probeOk, login, reply);
    if ensured.result.Ok? {
      var x := Exchange(ensured.api.core, cmd, reply);
      assert r.effects == ensured.effects + x.effects;
      CountsAdd(ensured.effects, x.effects);
      assert r.effects[..|ensured.effects|] == ensured.effects;
    }
  }
}

=== FILE: device_action.dfy ===
/**
 * The device actions of the media-player entities: which actions a device
 * offers, how an action configuration is validated, which media-player
 * service an action calls with which data, and which extra fields an
 * action asks for. Configurations are dictionaries from keys to strings.
 */
module DeviceAction {
  import opened Wrappers

  const Domain: string := "pandora_business"
  const MediaPlayerDomain: string := "media_player"

  /** Configuration keys. */
  const TypeKey: string := "type"
  const DeviceIdKey: string := "device_id"
  const DomainKey: string := "domain"
  const EntityIdKey: string := "entity_id"
  const SourceKey: string := "source"
  const ContentIdKey: string := "media_content_id"
  const ContentTypeKey: string := "media_content_type"

  /** The optional keys of every device action, and the one the schema
      removes from the validated result. */
  const AliasKey: string := "alias"
  const ContinueOnErrorKey: string := "continue_on_error"
  const EnabledKey: string := "enabled"
  const MetadataKey: string := "metadata"

  /** The action types. */
  datatype ActionType = NextTrack | Play | Pause | SelectSource | PlayMedia

  /** The name an action type has in a configuration. */
  function TypeName(t: ActionType): string {
    match t
    case NextTrack => "next_track"
    case Play => "play"
    case Pause => "pause"
    case SelectSource => "select_source"
    case PlayMedia => "play_media"
  }

  /** The action type a configuration's "type" string names, if any. */
  function ParseType(s: string): (t: Option<ActionType>)
    ensures t.Some? ==> TypeName(t.value) == s
  {
    if s == "next_track" then Some(NextTrack)
    else if s == "play" then Some(Play)
    else if s == "pause" then Some(Pause)
    else if s == "select_source" then Some(SelectSource)
    else if s == "play_media" then Some(PlayMedia)
    else None
  }

  /** Naming and parsing are inverse. */
  lemma ParseTypeName(t: ActionType)
    ensures ParseType(TypeName(t)) == Some(t)
  {
  }

  /** The `MediaPlayerEntityFeature` members an entity can support; a
      supported-feature value is the set of its members, and
      `features & Feature` is truthy exactly when the member is in it. */
  datatype Feature =
    | PauseFeature | PlayFeature | StopFeature | NextTrackFeature | PreviousTrackFeature
    | SelectSourceFeature | PlayMediaFeature | VolumeSetFeature | VolumeMuteFeature | VolumeStepFeature

  /** An entity-registry entry of the device. */
  datatype Entry = Entry(platform: string, domain: string, entityId: string, id: string, features: set<Feature>)

  /** An offered action: `{device_id, domain, entity_id, type}`. */
  datatype Action = Action(deviceId: string, domain: string, entityId: string, actionType: ActionType)

  /** Whether an entry belongs to this integration's media players. */
  predicate Listed(e: Entry) {
    e.platform == Domain && e.domain == MediaPlayerDomain
  }

  /** Whether an entity with `features` is offered actions of type `t`:
      pause, play and next track only when supported, source selection and
      media playback always. */
  predicate Offered(t: ActionType, features: set<Feature>) {
    match t
    case Pause => PauseFeature in features
    case Play => PlayFeature in features
    case NextTrack => NextTrackFeature in features
    case SelectSource => true
    case PlayMedia => true
  }

  /** The actions one entry contributes, in the order they are appended. */
  function EntryActions(deviceId: string, e: Entry): seq<Action> {
    if !Listed(e) then []
    else
      var base := Action(deviceId, Domain, e.id, Pause);
      (if PauseFeature in e.features then [base] else [])
      + (if PlayFeature in e.features then [base.(actionType := Play)] else [])
      + (if NextTrackFeature in e.features then [base.(actionType := NextTrack)] else [])
      + [base.(actionType := SelectSource), base.(actionType := PlayMedia)]
  }

  /** An entry contributes exactly the actions of its offered types, each
      naming the device, the integration and the entry's registry id. */
  lemma EntryActionsOffered(deviceId: string, e: Entry, a: Action)
    ensures a in EntryActions(deviceId, e) <==>
              Listed(e) && a == Action(deviceId, Domain, e.id, a.actionType) && Offered(a.actionType, e.features)
  {
  }

  /** Where each type comes in an entry's list: pause, play, next track,
      source selection, media playback. */
  function Rank(t: ActionType): nat {
    match t
    case Pause => 0
    case Play => 1
    case NextTrack => 2
    case SelectSource => 3
    case PlayMedia => 4
  }

  /** An entry contributes its actions once each, in rank order, and a
      listed entry's last two are always source selection and media
      playback. */
  lemma EntryActionsOrdered(deviceId: string, e: Entry)
    ensures var added := EntryActions(deviceId, e);
            (forall i, j :: 0 <= i < j < |added| ==> Rank(added[i].actionType) < Rank(added[j].actionType))
            && (!Listed(e) <==> added == [])
            && (Listed(e) ==> |added| >= 2 && added[|added| - 2].actionType == SelectSource
                                           && added[|added| - 1].actionType == PlayMedia)
  {
  }

  /** `EntryActionsOffered` for every action at once. */
  lemma EntryActionsMembers(deviceId: string, e: Entry)
    ensures forall a :: a in EntryActions(deviceId, e) <==>
              Listed(e) && a == Action(deviceId, Domain, e.id, a.actionType) && Offered(a.actionType, e.features)
  {
    forall a {
      EntryActionsOffered(deviceId, e, a);
    }
  }

  /** Whether some listed entry with the action's registry id is offered the
      action's type on this device. */
  predicate ActionOffered(deviceId: string, entries: seq<Entry>, a: Action) {
    a.deviceId == deviceId && a.domain == Domain
    && exists k :: 0 <= k < |entries| && Listed(entries[k]) && entries[k].id == a.entityId
                    && Offered(a.actionType, entries[k].features)
  }

  /** The reference list: each entry's actions, entries in order. */
  function AllActions(deviceId: string, entries: seq<Entry>): seq<Action>
  {
    if |entries| == 0 then [] else AllActions(deviceId, entries[..|entries| - 1]) + EntryActions(deviceId, entries[|entries| - 1])
  }

  /** The loop body of `async_get_actions` for one entry: nothing for an
      entry of another integration or domain; otherwise the supported ones
      of pause, play and next track, then source selection and media
      playback. */
  method EntryActionsOf(deviceId: string, e: Entry) returns (added: seq<Action>)
    ensures added == EntryActions(deviceId, e)
    ensures forall a :: a in added <==>
              Listed(e) && a == Action(deviceId, Domain, e.id, a.actionType) && Offered(a.actionType, e.features)
    ensures forall i, j :: 0 <= i < j < |added| ==> Rank(added[i].actionType) < Rank(added[j].actionType)
    ensures !Listed(e) <==> added == []
    ensures Listed(e) ==> |added| >= 2 && added[|added| - 2].actionType == SelectSource
                                       && added[|added| - 1].actionType == PlayMedia
  {
    added := [];
    if Listed(e) {
      var base := Action(deviceId, Domain, e.id, Pause);
      if PauseFeature in e.features {
        added := added + [base];
      }
      if PlayFeature in e.features {
        added := added + [base.(actionType := Play)];
      }
      if NextTrackFeature in e.features {
        added := added + [base.(actionType := NextTrack)];
      }
      added := added + [base.(actionType := SelectSource), base.(actionType := PlayMedia)];
    }
    assert added == EntryActions(deviceId, e);
    EntryActionsOrdered(deviceId, e);
    EntryActionsMembers(deviceId, e);
  }

  /** `async_get_actions`: walk the device's registry entries, skip the
      ones of other integrations or domains, and list the actions of each
      remaining media player. */
  method GetActions(deviceId: string, entries: seq<Entry>) returns (actions: seq<Action>)
    ensures actions == AllActions(deviceId, entries)
    ensures forall a :: a in actions <==> ActionOffered(deviceId, entries, a)
  {
    actions := [];
    var i := 0;
    while i < |entries|
      invariant 0 <= i <= |entries|
      invariant actions == AllActions(deviceId, entries[..i])
    {
      var e := entries[i];
      assert entries[..i + 1][..i] == entries[..i] && entries[..i + 1][i] == e;
      var added := EntryActionsOf(deviceId, e);
      actions := actions + added;
      i := i + 1;
    }
    assert entries[..i] == entries;
    forall a {
      OfferedActions(deviceId, entries, a);
    }
  }

  /** An action is offered exactly when some listed entry with that
      registry id supports its type. */
  lemma {:induction false} OfferedActions(deviceId: string, entries: seq<Entry>, a: Action)
    ensures a in AllActions(deviceId, entries) <==> ActionOffered(deviceId, entries, a)
  {
    if |entries| > 0 {
      var n := |entries| - 1;
      var init := entries[..n];
      OfferedActions(deviceId, init, a);
      EntryActionsOffered(deviceId, entries[n], a);
      assert AllActions(deviceId, entries) == AllActions(deviceId, init) + EntryActions(deviceId, entries[n]);
      if a in AllActions(deviceId, init) {
        var k :| 0 <= k < |init| && Listed(init[k]) && init[k].id == a.entityId
                 && Offered(a.actionType, init[k].features);
        assert entries[k] == init[k];
      }
      if a.deviceId == deviceId && a.domain == Domain {
        if k :| 0 <= k < |entries| && Listed(entries[k]) && entries[k].id == a.entityId
                && Offered(a.actionType, entries[k].features) {
          if k < n {
            assert init[k] == entries[k];
          }
        }
      }
    }
  }

  /** Why validation rejected a configuration: reading the type raised
      `KeyError`, or the schema raised `vol.Invalid`. */
  datatype ConfigError = MissingType | SchemaInvalid

  /** Python's `str.lower()` on ASCII letters. */
  function AsciiLower(s: string): (r: string)
    ensures |r| == |s|
  {
    seq(|s|, i requires 0 <= i < |s| => if 'A' <= s[i] <= 'Z' then (s[i] as int + 32) as char else s[i])
  }

  /** The characters Python's `str.isspace()` holds for. */
  predicate IsSpace(c: char) {
    c in {' ', '\t', '\n', '\U{000B}', '\U{000C}', '\r', '\U{001C}', '\U{001D}', '\U{001E}', '\U{001F}',
          '\U{0085}', '\U{00A0}', '\U{1680}', '\U{2000}', '\U{2001}', '\U{2002}', '\U{2003}', '\U{2004}',
          '\U{2005}', '\U{2006}', '\U{2007}', '\U{2008}', '\U{2009}', '\U{200A}', '\U{2028}', '\U{2029}',
          '\U{202F}', '\U{205F}', '\U{3000}'}
  }

  /** Python's `str.lstrip()`: the suffix left after the leading spaces. */
  function StripStart(s: string): (r: string)
    ensures |r| <= |s| && r == s[|s| - |r|..]
    ensures forall i :: 0 <= i < |s| - |r| ==> IsSpace(s[i])
    ensures |r| > 0 ==> !IsSpace(r[0])
  {
    if |s| > 0 && IsSpace(s[0]) then StripStart(s[1..]) else s
  }

  /** Python's `str.rstrip()`: the prefix left before the trailing spaces. */
  function StripEnd(s: string): (r: string)
    ensures |r| <= |s| && r == s[..|r|]
    ensures forall i :: |r| <= i < |s| ==> IsSpace(s[i])
    ensures |r| > 0 ==> !IsSpace(r[|r| - 1])
  {
    if |s| > 0 && IsSpace(s[|s| - 1]) then StripEnd(s[..|s| - 1]) else s
  }

  /** Python's `str.strip()`. */
  function Strip(s: string): string {
    StripEnd(StripStart(s))
  }

  /** The strings `cv.boolean` accepts: lower-cased and stripped, one of
      the five true or five false words. */
  predicate IsBooleanString(s: string) {
    Strip(AsciiLower(s)) in {"1", "true", "yes", "on", "enable", "0", "false", "no", "off", "disable"}
  }

  /** Leading spaces do not change what `lstrip` leaves. */
  lemma {:induction false} StripStartSkipsPadding(pad: string, s: string)
    requires forall i :: 0 <= i < |pad| ==> IsSpace(pad[i])
    ensures StripStart(pad + s) == StripStart(s)
    decreases |pad|
  {
    if |pad| > 0 {
      assert (pad + s)[0] == pad[0];
      assert (pad + s)[1..] == pad[1..] + s;
      StripStartSkipsPadding(pad[1..], s);
    } else {
      assert pad + s == s;
    }
  }

  /** Trailing spaces do not change what `rstrip` leaves. */
  lemma {:induction false} StripEndSkipsPadding(s: string, pad: string)
    requires forall i :: 0 <= i < |pad| ==> IsSpace(pad[i])
    ensures StripEnd(s + pad) == StripEnd(s)
    decreases |pad|
  {
    if |pad| > 0 {
      var n := |pad| - 1;
      assert (s + pad)[|s + pad| - 1] == pad[n];
      assert (s + pad)[..|s + pad| - 1] == s + pad[..n];
      StripEndSkipsPadding(s, pad[..n]);
    } else {
      assert s + pad == s;
    }
  }

  /** Lower-casing works character by character. */
  lemma AsciiLowerConcat(a: string, b: string)
    ensures AsciiLower(a + b) == AsciiLower(a) + AsciiLower(b)
  {
    assert forall i :: 0 <= i < |a + b| ==> AsciiLower(a + b)[i] == (AsciiLower(a) + AsciiLower(b))[i];
  }

  /** Lower-casing leaves spaces alone. */
  lemma AsciiLowerKeepsSpaces(pad: string)
    requires forall i :: 0 <= i < |pad| ==> IsSpace(pad[i])
    ensures AsciiLower(pad) == pad
  {
  }

  /** Spaces around a string do not change what `strip` leaves. */
  lemma {:induction false} StripSkipsPadding(before: string, s: string, after: string)
    requires forall i :: 0 <= i < |before| ==> IsSpace(before[i])
    requires forall i :: 0 <= i < |after| ==> IsSpace(after[i])
    ensures Strip(before + s + after) == Strip(s)
  {
    assert before + s + after == before + (s + after);
    StripStartSkipsPadding(before, s + after);
    StripStartOverPadding(s, after);
  }

  /** `continue_on_error` accepts a boolean word whatever spaces surround
      it. */
  lemma {:induction false} PaddedBooleanAccepted(before: string, s: string, after: string)
    requires forall i :: 0 <= i < |before| ==> IsSpace(before[i])
    requires forall i :: 0 <= i < |after| ==> IsSpace(after[i])
    ensures IsBooleanString(before + s + after) <==> IsBooleanString(s)
  {
    AsciiLowerConcat(before + s, after);
    AsciiLowerConcat(before, s);
    AsciiLowerKeepsSpaces(before);
    AsciiLowerKeepsSpaces(after);
    assert AsciiLower(before + s + after) == before + AsciiLower(s) + after;
    StripSkipsPadding(before, AsciiLower(s), after);
  }

  /** Trailing spaces do not change what `strip` leaves. */
  lemma {:induction false} StripStartOverPadding(s: string, pad: string)
    requires forall i :: 0 <= i < |pad| ==> IsSpace(pad[i])
    ensures StripEnd(StripStart(s + pad)) == StripEnd(StripStart(s))
    decreases |s|
  {
    if |s| > 0 && IsSpace(s[0]) {
      assert (s + pad)[0] == s[0];
      assert (s + pad)[1..] == s[1..] + pad;
      StripStartOverPadding(s[1..], pad);
    } else if |s| > 0 {
      assert StripStart(s + pad) == s + pad;
      StripEndSkipsPadding(s, pad);
    } else {
      assert s + pad == pad;
      StripStartAllSpaces(pad);
    }
  }

  /** A string of spaces strips to nothing. */
  lemma {:induction false} StripStartAllSpaces(pad: string)
    requires forall i :: 0 <= i < |pad| ==> IsSpace(pad[i])
    ensures StripStart(pad) == []
    decreases |pad|
  {
    if |pad| > 0 {
      StripStartAllSpaces(pad[1..]);
    }
  }

  const BaseKeys: set<string> := {DeviceIdKey, DomainKey, TypeKey, EntityIdKey}

  /** The keys the schema chosen for type string `t` requires. */
  function RequiredKeys(t: string): (keys: set<string>)
    ensures BaseKeys <= keys
  {
    if t == "select_source" then BaseKeys + {SourceKey}
    else if t == "play_media" then BaseKeys + {ContentIdKey}
    else BaseKeys
  }

  /** The keys every schema allows besides the required ones. */
  const OptionalKeys: set<string> := {AliasKey, ContinueOnErrorKey, EnabledKey, MetadataKey}

  /** A configuration the schema of its type accepts: a known type, every
      required key, no unknown key, and a boolean `continue_on_error`. */
  predicate ValidConfig(config: map<string, string>)
    requires TypeKey in config
  {
    var t := config[TypeKey];
    ParseType(t).Some?
    && RequiredKeys(t) <= config.Keys
    && config.Keys <= RequiredKeys(t) + OptionalKeys
    && (ContinueOnErrorKey in config ==> IsBooleanString(config[ContinueOnErrorKey]))
  }

  /** `async_validate_action_config`: read the type, pick the schema (the
      extended one for "select_source" and "play_media"), validate, and
      drop `metadata` from the result. */
  function Validate(config: map<string, string>): (r: Result<map<string, string>, ConfigError>)
    ensures r.Ok? ==> TypeKey in config && ValidConfig(config)
    ensures r.Ok? ==> r.value == config - {MetadataKey}
    ensures r.Ok? ==> ParseType(r.value[TypeKey]).Some? && RequiredKeys(r.value[TypeKey]) <= r.value.Keys
  {
    if TypeKey !in config then Err(MissingType)
    else if !ValidConfig(config) then Err(SchemaInvalid)
    else Ok(config - {MetadataKey})
  }

  /** Validation fails exactly on the configurations without a type or
      outside the schema of their type. */
  lemma ValidateRejects(config: map<string, string>)
    ensures Validate(config) == Err(MissingType) <==> TypeKey !in config
    ensures Validate(config) == Err(SchemaInvalid) <==> TypeKey in config && !ValidConfig(config)
  {
  }

  /** A media-player service call. */
  datatype ServiceCall = ServiceCall(domain: string, service: string, data: map<string, string>)

  /** Why executing an action raised. */
  datatype CallError = CallKeyError(key: string) | ServiceUnbound

  /** The service each action type calls. */
  function ServiceFor(actionType: string): Option<string> {
    match actionType
    case "play" => Some("media_play")
    case "pause" => Some("media_pause")
    case "next_track" => Some("media_next_track")
    case "play_media" => Some("play_media")
    case "select_source" => Some("select_source")
    case _ => None
  }

  /** `async_call_action_from_config`: the service for the type, with the
      entity id, plus the content id and the integration's domain as the
      content type for "play_media", and the source for "select_source".
      A missing key raises `KeyError`; an unknown type leaves `service`
      unbound. */
  function CallAction(config: map<string, string>): (r: Result<ServiceCall, CallError>)
    ensures EntityIdKey !in config ==> r == Err(CallKeyError(EntityIdKey))
    ensures r.Ok? ==> TypeKey in config && ServiceFor(config[TypeKey]) == Some(r.value.service)
    ensures r.Ok? ==> r.value.domain == MediaPlayerDomain
                      && EntityIdKey in r.value.data && r.value.data[EntityIdKey] == config[EntityIdKey]
    ensures r.Ok? && config[TypeKey] == "play_media" ==>
              ContentIdKey in config && r.value.data == map[EntityIdKey := config[EntityIdKey], ContentIdKey := config[ContentIdKey],
                                  ContentTypeKey := Domain]
    ensures r.Ok? && config[TypeKey] == "select_source" ==>
              SourceKey in config && r.value.data == map[EntityIdKey := config[EntityIdKey], SourceKey := config[SourceKey]]
    ensures r.Ok? && config[TypeKey] in {"play", "pause", "next_track"} ==>
              r.value.data == map[EntityIdKey := config[EntityIdKey]]
    ensures r == Err(ServiceUnbound) <==>
              EntityIdKey in config && TypeKey in config && ServiceFor(config[TypeKey]).None?
  {
    if EntityIdKey !in config then Err(CallKeyError(EntityIdKey))
    else if TypeKey !in config then Err(CallKeyError(TypeKey))
    else
      var data := map[EntityIdKey := config[EntityIdKey]];
      var t := config[TypeKey];
      if t == "play_media" then
        if ContentIdKey !in config then Err(CallKeyError(ContentIdKey))
        else Ok(ServiceCall(MediaPlayerDomain, "play_media",
                            data[ContentIdKey := config[ContentIdKey]][ContentTypeKey := Domain]))
      else if t == "select_source" then
        if SourceKey !in config then Err(CallKeyError(SourceKey))
        else Ok(ServiceCall(MediaPlayerDomain, "select_source", data[SourceKey := config[SourceKey]]))
      else
        match ServiceFor(t)
        case Some(service) => Ok(ServiceCall(MediaPlayerDomain, service, data))
        case None => Err(ServiceUnbound)
  }

  /** `async_get_action_capabilities`: the one required extra string field
      of "select_source" and "play_media", and none for the other types. */
  function Capabilities(config: map<string, string>): (r: Result<Option<string>, CallError>)
    ensures TypeKey !in config <==> r == Err(CallKeyError(TypeKey))
    ensures r.Ok? && r.value.Some? ==> r.value.value in RequiredKeys(config[TypeKey]) - {DeviceIdKey, DomainKey, TypeKey, EntityIdKey}
    ensures r.Ok? ==> (r.value.None? <==> RequiredKeys(config[TypeKey]) == {DeviceIdKey, DomainKey, TypeKey, EntityIdKey})
  {
    if TypeKey !in config then Err(CallKeyError(TypeKey))
    else if config[TypeKey] == "select_source" then Ok(Some(SourceKey))
    else if config[TypeKey] == "play_media" then Ok(Some(ContentIdKey))
    else Ok(None)
  }

  /** The configuration an offered action is stored as. */
  function ActionConfig(a: Action): map<string, string> {
    map[DeviceIdKey := a.deviceId, DomainKey := a.domain, EntityIdKey := a.entityId, TypeKey := TypeName(a.actionType)]
  }

  /** The configuration an action is stored as once the extra field its
      capabilities ask for is filled in with `extra`. */
  function CompletedConfig(a: Action, extra: string): map<string, string> {
    var config := ActionConfig(a);
    match Capabilities(config)
    case Ok(Some(key)) => config[key := extra]
    case _ => config
  }

  lemma CompletedConfigKeys(a: Action, extra: string)
    ensures CompletedConfig(a, extra).Keys == RequiredKeys(TypeName(a.actionType))
    ensures CompletedConfig(a, extra)[TypeKey] == TypeName(a.actionType)
    ensures CompletedConfig(a, extra)[EntityIdKey] == a.entityId
  {
  }

  /** Every action, completed with the extra field its capabilities ask
      for, passes the schema of its type, and executing the validated
      configuration calls the media-player service of its type on the
      action's entity. */
  lemma {:induction false} OfferedActionsRun(a: Action, extra: string)
    ensures var full := CompletedConfig(a, extra);
            Validate(full) == Ok(full)
            && CallAction(full).Ok?
            && CallAction(full).value.service == ServiceFor(TypeName(a.actionType)).value
            && CallAction(full).value.data[EntityIdKey] == a.entityId
  {
    var full := CompletedConfig(a, extra);
    CompletedConfigKeys(a, extra);
    ParseTypeName(a.actionType);
    assert full - {MetadataKey} == full;
  }

  /** A type that is not one of the five fails validation, and executing
      such a configuration anyway leaves the service unbound. */
  lemma UnknownTypeRejected(config: map<string, string>)
    requires TypeKey in config && EntityIdKey in config && ParseType(config[TypeKey]).None?
    ensures Validate(config) == Err(SchemaInvalid)
    ensures CallAction(config) == Err(ServiceUnbound)
  {
  }
}

=== FILE: pandora_client.dfy ===
/**
 * The blocking client `PandoraClient`: `ensure_session` and the six zone
 * commands over the shared session core. It has no `except` clause of its
 * own: what `requests` or a missing reply field raises propagates as it
 * is. The model keeps the reason.
 */
module PandoraClient {
  import opened Wrappers
  import opened PyJson
  import opened Protocol
  import opened Session

  /** Why a call raised. */
  datatype Failure = LoginFailed(login: LoginFailure) | CommandFailed(command: CommandFailure)

  /** The constructor: zone 1, nothing held, no callback. The headers of
      every later command carry the host without its trailing '/'. */
  function NewClient(host: string, username: string, password: string): (c: Core)
    ensures c.host == StripTrailingSlashes(host)
    ensures c.username == username && c.password == password
    ensures Cookies(c.creds) == map[]
    ensures !c.callback
  {
    NewCore(host, username, password)
  }

  /** `ensure_session`: logs in exactly when `_check_session` answers False,
      and afterwards a session id is held unless that login raised. */
  function EnsureSession(c: Core, probeOk: bool, login: LoginReply): (r: Step<(), Failure>)
    ensures CountLogins(r.effects) == (if CheckSession(c, probeOk).result.value then 0 else 1)
    ensures r.result.Ok? ==> Present(r.core.creds.sessionId)
    ensures r.result.Err? ==> r.core == c && r.result.error.LoginFailed?
    ensures forall e :: e in r.effects ==> !e.CommandPost?
  {
    var check := CheckSession(c, probeOk);
    if check.result.value then
      Step(c, check.effects, Ok(()))
    else
      var l := Login(c, login);
      CountsAdd(check.effects, l.effects);
      assert CountLogins(check.effects) == 0;
      var result := match l.result
        case Ok(_) => Ok(())
        case Err(f) => Err(LoginFailed(f));
      Step(l.core, check.effects + l.effects, result)
  }

  /** A command's outcome as the client reports it: the payload, or the
      command failure it raises. */
  function CommandOutcome(res: Result<Option<Json>, CommandFailure>): (t: Result<Option<Json>, Failure>)
    ensures res.Ok? <==> t.Ok?
    ensures res.Ok? ==> t.value == res.value
    ensures res.Err? ==> t.error == CommandFailed(res.error)
  {
    match res
    case Ok(v) => Ok(v)
    case Err(f) => Err(CommandFailed(f))
  }

  /** The request of a command method once `ensure_session` has succeeded
      with effects `ensured.effects`: one post with the held cookies, after
      all of them. */
  function Send(ensured: Step<(), Failure>, cmd: Command, reply: Reply): (r: Step<Option<Json>, Failure>)
    requires Present(ensured.core.creds.sessionId)
    requires forall e :: e in ensured.effects ==> !e.CommandPost?
    ensures r.core == ensured.core
    ensures r.result == CommandOutcome(Interpret(cmd, reply))
    ensures r.result.Ok? ==> (r.result.value.Some? <==> cmd.Reads())
    ensures CountLogins(r.effects) == CountLogins(ensured.effects)
    ensures |r.effects| > 0 && r.effects[|r.effects| - 1] == CommandPost(CommandRequest(r.core.host, Cookies(r.core.creds), cmd))
    ensures forall e :: e in r.effects && e.CommandPost? ==> "sessionId" in e.request.cookies
    ensures forall i :: 0 <= i < |r.effects| && r.effects[i].CommandPost? ==> i == |r.effects| - 1
  {
    var x := Exchange(ensured.core, cmd, reply);
    CountsAdd(ensured.effects, x.effects);
    CommandPostLast(ensured.effects, x.effects[0]);
    Step(x.core, ensured.effects + x.effects, CommandOutcome(x.result))
  }

  /** One of the six command methods: `ensure_session`, then the command's
      request, then the envelope check. A command request is only ever sent
      with a session id attached, it is the last thing the call does, and a
      failed login stops the call before it. */
  function Run(c: Core, cmd: Command, probeOk: bool, login: LoginReply, reply: Reply): (r: Step<Option<Json>, Failure>)
    ensures forall e :: e in r.effects && e.CommandPost? ==> "sessionId" in e.request.cookies
    ensures forall i :: 0 <= i < |r.effects| && r.effects[i].CommandPost? ==> i == |r.effects| - 1
    ensures r.result.Err? && r.result.error.LoginFailed? ==> r.core == c && forall e :: e in r.effects ==> !e.CommandPost?
    ensures !r.result.Err? || r.result.error.CommandFailed? ==> |r.effects| > 0 && r.effects[|r.effects| - 1].CommandPost?
    ensures r.result.Ok? ==> (r.result.value.Some? <==> cmd.Reads())
    ensures CountLogins(r.effects) == 0 ==> r.core == c
    ensures EnsureSession(c, probeOk, login).result.Err? ==> r.result == Err(EnsureSession(c, probeOk, login).result.error)
    ensures EnsureSession(c, probeOk, login).result.Ok? ==>
              r.result == CommandOutcome(Interpret(cmd, reply))
              && r.core == EnsureSession(c, probeOk, login).core
              && r.effects[|r.effects| - 1] == CommandPost(CommandRequest(r.core.host, Cookies(r.core.creds), cmd))
  {
    var ensured := EnsureSession(c, probeOk, login);
    if ensured.result.Err? then
      Step(ensured.core, ensured.effects, Err(ensured.result.error))
    else
      Send(ensured, cmd, reply)
  }

  /** With no session id held, exactly one login precedes the command
      request, and a successful login lets the request go out. */
  lemma NoSessionLogsInFirst(c: Core, cmd: Command, probeOk: bool, login: LoginReply, reply: Reply)
    requires !Present(c.creds.sessionId)
    requires JudgeLogin(login).Ok?
    ensures var r := Run(c, cmd, probeOk, login, reply);
            CountLogins(r.effects) == 1
            && r.effects[0] == LoginPost(LoginRequestFor(c.host, c.username, c.password))
            && r.effects[|r.effects| - 1] == CommandPost(CommandRequest(c.host, Cookies(r.core.creds), cmd))
  {
    var ensured := EnsureSession(c, probeOk, login);
    var x := Exchange(ensured.core, cmd, reply);
    CountsAdd(ensured.effects, x.effects);
    assert CountLogins(x.effects) == 0;
  }

  /** Whenever `ensure_session` succeeds, by the held session or by a new
      login, a reply whose status code is not "OK" makes every one of the
      six commands raise with the reply's status object. */
  lemma NonOkStatusRaises(c: Core, cmd: Command, probeOk: bool, login: LoginReply, body: Json)
    requires EnsureSession(c, probeOk, login).result.Ok?
    requires StatusNotOkay(body)
    ensures Run(c, cmd, probeOk, login, ReplyBody(body)).result
            == Err(CommandFailed(StatusNotOk(Index(body, "status").value)))
  {
    NonOkStatusFails(cmd, body);
  }

  /** A transport failure of the command raises once `ensure_session` has
      succeeded, and in every case leaves the session as the
      `ensure_session` step left it: no token is dropped. */
  lemma TransportFailureKeepsSession(c: Core, cmd: Command, probeOk: bool, login: LoginReply)
    ensures var r := Run(c, cmd, probeOk, login, ReplyTransportFailure);
            r.core == EnsureSession(c, probeOk, login).core
            && r.result.Err?
            && (EnsureSession(c, probeOk, login).result.Ok? ==> r.result == Err(CommandFailed(TransportFailure)))
            && r.result.error in {LoginFailed(LoginTransport), LoginFailed(NoSessionId), CommandFailed(TransportFailure)}
  {
  }

  /** Whenever `ensure_session` succeeds, a reply whose status code is "OK"
      makes `get_playback_info` return its `data`, `get_stations` its
      `data.styles`, and the control commands nothing. */
  lemma OkStatusReturnsPayload(c: Core, cmd: Command, probeOk: bool, login: LoginReply, body: Json)
    requires EnsureSession(c, probeOk, login).result.Ok?
    requires StatusOk(body)
    ensures var r := Run(c, cmd, probeOk, login, ReplyBody(body));
            var data := Index(body, "data");
            (cmd.GetPlaybackInfo? && data.Ok? ==> r.result == Ok(Some(data.value)))
            && (cmd.GetStations? && data.Ok? && Index(data.value, "styles").Ok? ==>
                  r.result == Ok(Some(Index(data.value, "styles").value)))
            && (!cmd.Reads() ==> r.result == Ok(None))
  {
    OkStatusYieldsPayload(cmd, body);
  }
}

=== FILE: player.dfy ===
/**
 * `PandoraBusinessPlayerMediaPlayer`: the media-player entity over the async
 * client. Each transition takes the outcomes of the client calls it makes
 * (a payload, or the `ApiException` the call raised) and reports the new
 * entity record, the commands issued in order, and the exception that
 * escapes, if any. The `except PandoraBusinessAPIError` clauses catch the
 * API and authentication errors; a Python error raised by a wrongly shaped
 * payload is not caught and escapes.
 */
module Player {
  import opened Wrappers
  import opened PyJson
  import opened Protocol
  import opened BusinessApi

  /** `MediaPlayerState` as the entity uses it. */
  datatype PlayerState = Off | Playing | Paused

  /** `_current_track`: the three fields copied from the payload's track
      (`JNull` where the track has none). */
  datatype Track = Track(title: Json, artist: Json, album: Json)

  /** The entity's record: state, source list, source (`JNull` for `None`)
      and current track. */
  datatype Player = Player(state: PlayerState, sourceList: seq<Json>, source: Json, currentTrack: Option<Track>)

  datatype PlayerStep = PlayerStep(player: Player, calls: seq<Command>, escaped: Option<ApiException>)

  /** The constructor's record. */
  const InitialPlayer: Player := Player(Off, [], JNull, None)

  /** What an `except PandoraBusinessAPIError` clause does with `e` raised
      at record `p`: a caught error leaves `onCaught`, anything else escapes
      with `p` as the raise left it. */
  function Handle(p: Player, calls: seq<Command>, e: ApiException, onCaught: Player): (s: PlayerStep)
    ensures s.calls == calls
    ensures s.escaped.None? <==> Catches(ApiErrorClass, e)
    ensures s.escaped.Some? ==> s.escaped.value == e && s.player == p
    ensures s.escaped.None? ==> s.player == onCaught
  {
    if Catches(ApiErrorClass, e) then PlayerStep(onCaught, calls, None) else PlayerStep(p, calls, Some(e))
  }

  /** `info.get("volume", 0.5) / 100.0`: the value is only read, but a
      non-numeric one raises `TypeError` in the division. */
  function CheckVolume(info: Json): (r: Result<(), PyError>)
    requires info.JDict?
    ensures r.Ok? <==> !HasKey(info.fields, "volume")
                       || Index(info, "volume").value.JInt? || Index(info, "volume").value.JBool?
    ensures r.Err? ==> r.error == TypeError
  {
    match Lookup(info.fields, "volume")
    case None => Ok(())
    case Some(JInt(_)) => Ok(())
    case Some(JBool(_)) => Ok(())
    case Some(_) => Err(TypeError)
  }

  /** The track block: a truthy "currentTrack" replaces the track with its
      title, artist and album; a falsy or missing one leaves it alone. */
  function TrackStep(p: Player, info: Json): (r: Result<Player, PyError>)
    requires info.JDict?
    ensures r.Ok? ==> r.value.(currentTrack := p.currentTrack) == p
    ensures var track := Get(info, "currentTrack", JNull).value;
            (!Truthy(track) ==> r == Ok(p))
            && (Truthy(track) && track.JDict? ==>
                  r == Ok(p.(currentTrack := Some(Track(Get(track, "title", JNull).value,
                                                       Get(track, "artist", JNull).value,
                                                       Get(track, "album", JNull).value)))))
            && (Truthy(track) && !track.JDict? ==> r == Err(AttributeError))
  {
    var track := Get(info, "currentTrack", JNull).value;
    if !Truthy(track) then Ok(p)
    else if !track.JDict? then Err(AttributeError)
    else
      Ok(p.(currentTrack := Some(Track(Get(track, "title", JNull).value,
                                       Get(track, "artist", JNull).value,
                                       Get(track, "album", JNull).value))))
  }

  /** `[station["name"] for station in stations]` over the iterated items:
      every item's name, in order, or the error of the first item that has
      none. */
  function StationNames(items: seq<Json>): (r: Result<seq<Json>, PyError>)
    ensures r.Ok? <==> forall i :: 0 <= i < |items| ==> Index(items[i], "name").Ok?
    ensures r.Ok? ==> |r.value| == |items|
                      && forall i :: 0 <= i < |items| ==> Index(items[i], "name") == Ok(r.value[i])
    ensures r.Err? ==> exists i :: 0 <= i < |items| && Index(items[i], "name") == Err(r.error)
                                   && forall j :: 0 <= j < i ==> Index(items[j], "name").Ok?
  {
    if |items| == 0 then Ok([])
    else
      var name :- Index(items[0], "name");
      var rest :- StationNames(items[1..]);
      Ok([name] + rest)
  }

  /** The source block: a truthy "currentStation" sets the source to its
      "name" (`None` when it has none); a falsy or missing one leaves it. */
  function SourceStep(p: Player, info: Json): (r: Result<Player, PyError>)
    requires info.JDict?
    ensures r.Ok? ==> r.value.(source := p.source) == p
    ensures var station := Get(info, "currentStation", JNull).value;
            (!Truthy(station) ==> r == Ok(p))
            && (Truthy(station) && station.JDict? ==> r == Ok(p.(source := Get(station, "name", JNull).value)))
            && (Truthy(station) && !station.JDict? ==> r == Err(AttributeError))
  {
    var station := Get(info, "currentStation", JNull).value;
    if !Truthy(station) then Ok(p)
    else
      var name :- Get(station, "name", JNull);
      Ok(p.(source := name))
  }

  /** `async_update`: `get_playback_info`, then the payload is read. A
      caught API error turns the entity off and keeps what was already
      assigned; a Python error escapes. */
  function Update(p: Player, info: Result<Json, ApiException>, stations: Result<Json, ApiException>): (s: PlayerStep)
    ensures s.calls == [GetPlaybackInfo] || s.calls == [GetPlaybackInfo, GetStations]
    ensures s.escaped.Some? ==> !Catches(ApiErrorClass, s.escaped.value)
    ensures info.Err? ==> s == Handle(p, [GetPlaybackInfo], info.error, p.(state := Off))
    ensures s.escaped.None? && s.calls == [GetPlaybackInfo] ==> s.player == p.(state := Off)
    ensures s.escaped.None? && s.player.state == Off ==> info.Err? || stations.Err?
  {
    match info
    case Err(e) => Handle(p, [GetPlaybackInfo], e, p.(state := Off))
    case Ok(data) => ReadInfo(p, data, stations)
  }

  /** The part of `async_update` after `get_playback_info` returned `info`:
      the state from "isPlaying", the volume read and the track block, each
      assignment made before the next step can raise, then the station
      part. */
  function ReadInfo(p: Player, info: Json, stations: Result<Json, ApiException>): (s: PlayerStep)
    ensures s.calls == [GetPlaybackInfo] || s.calls == [GetPlaybackInfo, GetStations]
    ensures s.escaped.Some? ==> !Catches(ApiErrorClass, s.escaped.value)
    ensures s.calls == [GetPlaybackInfo] ==> s.escaped.Some?
    ensures s.escaped.None? && s.player.state == Off ==> stations.Err?
  {
    match Get(info, "isPlaying", JNull)
    case Err(err) => PlayerStep(p, [GetPlaybackInfo], Some(Unhandled(err)))
    case Ok(isPlaying) =>
      var p1 := p.(state := if Truthy(isPlaying) then Playing else Paused);
      match CheckVolume(info)
      case Err(err) => PlayerStep(p1, [GetPlaybackInfo], Some(Unhandled(err)))
      case Ok(_) =>
        match TrackStep(p1, info)
        case Err(err) => PlayerStep(p1, [GetPlaybackInfo], Some(Unhandled(err)))
        case Ok(p2) => ReadStations(p2, info, stations)
  }

  /** The station part of `async_update`: `get_stations`, the source list
      and the source block. */
  function ReadStations(p: Player, info: Json, stations: Result<Json, ApiException>): (s: PlayerStep)
    requires info.JDict?
    ensures s.calls == [GetPlaybackInfo, GetStations]
    ensures s.escaped.Some? ==> !Catches(ApiErrorClass, s.escaped.value)
    ensures stations.Err? ==> s == Handle(p, s.calls, stations.error, p.(state := Off))
    ensures stations.Ok? ==> s.player.state == p.state
  {
    var calls := [GetPlaybackInfo, GetStations];
    match stations
    case Err(e) => Handle(p, calls, e, p.(state := Off))
    case Ok(list) =>
      match Iterate(list)
      case Err(err) => PlayerStep(p, calls, Some(Unhandled(err)))
      case Ok(items) =>
        match StationNames(items)
        case Err(err) => PlayerStep(p, calls, Some(Unhandled(err)))
        case Ok(names) =>
          var p3 := p.(sourceList := names);
          match SourceStep(p3, info)
          case Err(err) => PlayerStep(p3, calls, Some(Unhandled(err)))
          case Ok(p4) => PlayerStep(p4, calls, None)
  }

  /** A playback payload the update reads without raising: a dict whose
      volume is numeric or absent and whose track and station, when truthy,
      are dicts. */
  predicate ReadableInfo(info: Json) {
    info.JDict?
    && CheckVolume(info).Ok?
    && (Truthy(Get(info, "currentTrack", JNull).value) ==> Get(info, "currentTrack", JNull).value.JDict?)
    && (Truthy(Get(info, "currentStation", JNull).value) ==> Get(info, "currentStation", JNull).value.JDict?)
  }

  /** A station list the update reads without raising: a list of dicts that
      each have a "name". */
  predicate ReadableStations(stations: Json) {
    stations.JList? && forall i :: 0 <= i < |stations.items| ==> Index(stations.items[i], "name").Ok?
  }

  /** A successful update on readable payloads: PLAYING exactly when
      "isPlaying" is truthy, the source list is the stations' names in
      order, and the track and source follow the payload when it carries a
      truthy one and stay as they were otherwise. */
  lemma {:induction false} UpdateReadsPayload(p: Player, info: Json, stations: Json)
    requires ReadableInfo(info) && ReadableStations(stations)
    ensures var s := Update(p, Ok(info), Ok(stations));
            var track := Get(info, "currentTrack", JNull).value;
            var station := Get(info, "currentStation", JNull).value;
            s.escaped.None? && s.calls == [GetPlaybackInfo, GetStations]
            && (s.player.state == Playing <==> Truthy(Get(info, "isPlaying", JNull).value))
            && (s.player.state == Paused <==> !Truthy(Get(info, "isPlaying", JNull).value))
            && |s.player.sourceList| == |stations.items|
            && (forall i :: 0 <= i < |stations.items| ==> Index(stations.items[i], "name") == Ok(s.player.sourceList[i]))
            && (Truthy(track) ==> s.player.currentTrack == Some(Track(Get(track, "title", JNull).value,
                                                                   Get(track, "artist", JNull).value,
                                                                   Get(track, "album", JNull).value)))
            && (!Truthy(track) ==> s.player.currentTrack == p.currentTrack)
            && (Truthy(station) ==> s.player.source == Get(station, "name", JNull).value)
            && (!Truthy(station) ==> s.player.source == p.source)
  {
    var isPlaying := Get(info, "isPlaying", JNull).value;
    var p1 := p.(state := if Truthy(isPlaying) then Playing else Paused);
    var p2 := TrackStep(p1, info).value;
    var names := StationNames(stations.items).value;
    var p3 := p2.(sourceList := names);
    assert SourceStep(p3, info).Ok?;
  }

  /** When `get_stations` raises an API error after the playback payload
      was read, the entity turns off but keeps the track it just copied. */
  lemma {:induction false} StationErrorKeepsTrack(p: Player, info: Json, e: ApiException)
    requires ReadableInfo(info) && Catches(ApiErrorClass, e)
    ensures var s := Update(p, Ok(info), Err(e));
            var p1 := p.(state := if Truthy(Get(info, "isPlaying", JNull).value) then Playing else Paused);
            s.escaped.None? && s.player.state == Off
            && s.player.currentTrack == TrackStep(p1, info).value.currentTrack
            && s.player.sourceList == p.sourceList && s.player.source == p.source
  {
    var p1 := p.(state := if Truthy(Get(info, "isPlaying", JNull).value) then Playing else Paused);
    assert TrackStep(p1, info).Ok?;
  }

  /** The stored track's title, `None` while no track is stored. */
  function MediaTitle(p: Player): (v: Json)
    ensures p.currentTrack.None? ==> v == JNull
    ensures p.currentTrack.Some? ==> v == p.currentTrack.value.title
  {
    if p.currentTrack.Some? then p.currentTrack.value.title else JNull
  }

  /** The stored track's artist, `None` while no track is stored. */
  function MediaArtist(p: Player): (v: Json)
    ensures p.currentTrack.None? ==> v == JNull
    ensures p.currentTrack.Some? ==> v == p.currentTrack.value.artist
  {
    if p.currentTrack.Some? then p.currentTrack.value.artist else JNull
  }

  /** The stored track's album, `None` while no track is stored. */
  function MediaAlbumName(p: Player): (v: Json)
    ensures p.currentTrack.None? ==> v == JNull
    ensures p.currentTrack.Some? ==> v == p.currentTrack.value.album
  {
    if p.currentTrack.Some? then p.currentTrack.value.album else JNull
  }

  /** The media properties report the fields of the last truthy track a
      successful update read, and `None` before any track was read. */
  lemma {:induction false} MediaPropertiesFollowTrack(p: Player, info: Json, stations: Json)
    requires ReadableInfo(info) && ReadableStations(stations)
    ensures MediaTitle(InitialPlayer) == JNull && MediaArtist(InitialPlayer) == JNull
            && MediaAlbumName(InitialPlayer) == JNull
    ensures var q := Update(p, Ok(info), Ok(stations)).player;
            var track := Get(info, "currentTrack", JNull).value;
            Truthy(track) ==>
              MediaTitle(q) == Get(track, "title", JNull).value
              && MediaArtist(q) == Get(track, "artist", JNull).value
              && MediaAlbumName(q) == Get(track, "album", JNull).value
  {
    UpdateReadsPayload(p, info, stations);
  }

  /** The shape of play, pause, stop and next track: one command; on success
      the new state; a caught API error is logged and changes nothing. */
  function Control(p: Player, cmd: Command, result: Result<(), ApiException>, target: PlayerState): (s: PlayerStep)
    ensures s.calls == [cmd]
    ensures result.Ok? ==> s.player == p.(state := target) && s.escaped.None?
    ensures result.Err? ==> s.player == p
    ensures s.escaped.Some? <==> result.Err? && !Catches(ApiErrorClass, result.error)
  {
    match result
    case Ok(_) => PlayerStep(p.(state := target), [cmd], None)
    case Err(e) => Handle(p, [cmd], e, p)
  }

  /** `async_media_play`: `play`, then PLAYING; a caught error changes
      nothing. */
  function MediaPlay(p: Player, result: Result<(), ApiException>): (s: PlayerStep)
    ensures s.calls == [Protocol.Play]
    ensures result.Ok? ==> s.player == p.(state := Playing) && s.escaped.None?
    ensures result.Err? ==> s.player == p
    ensures s.escaped.Some? <==> result.Err? && !Catches(ApiErrorClass, result.error)
  {
    Control(p, Protocol.Play, result, Playing)
  }

  /** `async_media_pause`: `pause`, then PAUSED. */
  function MediaPause(p: Player, result: Result<(), ApiException>): (s: PlayerStep)
    ensures s.calls == [Protocol.Pause]
    ensures result.Ok? ==> s.player == p.(state := Paused) && s.escaped.None?
    ensures result.Err? ==> s.player == p
    ensures s.escaped.Some? <==> result.Err? && !Catches(ApiErrorClass, result.error)
  {
    Control(p, Protocol.Pause, result, Paused)
  }

  /** Stop sends the controller's pause and turns the entity off. */
  function MediaStop(p: Player, result: Result<(), ApiException>): (s: PlayerStep)
    ensures s.calls == [Protocol.Pause]
    ensures result.Ok? ==> s.player == p.(state := Off) && s.escaped.None?
    ensures result.Err? ==> s.player == p
    ensures s.escaped.Some? <==> result.Err? && !Catches(ApiErrorClass, result.error)
  {
    Control(p, Protocol.Pause, result, Off)
  }

  /** `async_media_next_track`: `skip_song`, and the record never changes. */
  function MediaNextTrack(p: Player, result: Result<(), ApiException>): (s: PlayerStep)
    ensures s.calls == [SkipSong]
    ensures s.player == p
    ensures s.escaped.Some? <==> result.Err? && !Catches(ApiErrorClass, result.error)
  {
    Control(p, SkipSong, result, p.state)
  }

  /** Play, pause and stop reach PLAYING, PAUSED and OFF on success; stop
      sends what pause sends; next track never changes the record; and a
      failed command changes nothing. */
  lemma ControlOutcomes(p: Player, result: Result<(), ApiException>)
    ensures result.Ok? ==> (MediaPlay(p, result).player.state == Playing
                            && MediaPause(p, result).player.state == Paused
                            && MediaStop(p, result).player.state == Off)
    ensures MediaStop(p, result).calls == MediaPause(p, result).calls == [Protocol.Pause]
    ensures MediaNextTrack(p, result).player == p
    ensures result.Err? ==> (MediaPlay(p, result).player == p && MediaPause(p, result).player == p
                             && MediaStop(p, result).player == p)
  {
  }

  /** No item before index `n` is a station named `source`, and each of
      them has a "name". */
  predicate NoMatchBefore(items: seq<Json>, source: string, n: int)
    requires 0 <= n <= |items|
  {
    forall j :: 0 <= j < n ==> Index(items[j], "name").Ok? && Index(items[j], "name").value != JStr(source)
  }

  /** The loop of `async_select_source`: the first station named `source`,
      none when no station is, or the error of the first item without a
      name that comes before any match. */
  function FindStation(items: seq<Json>, source: string): (r: Result<Option<nat>, PyError>)
    ensures r == Ok(None) <==> NoMatchBefore(items, source, |items|)
    ensures r.Ok? && r.value.Some? ==>
              r.value.value < |items| && Index(items[r.value.value], "name") == Ok(JStr(source))
              && NoMatchBefore(items, source, r.value.value)
    ensures r.Err? ==> exists i :: 0 <= i < |items| && Index(items[i], "name") == Err(r.error)
                                   && NoMatchBefore(items, source, i)
  {
    if |items| == 0 then Ok(None)
    else
      var name :- Index(items[0], "name");
      if name == JStr(source) then Ok(Some(0))
      else
        var rest :- FindStation(items[1..], source);
        Ok(if rest.Some? then Some(rest.value + 1) else None)
  }

  /** `async_select_source`: fetch the stations, find the first one with the
      given name and send its "id"; only then does the source change. */
  function SelectSource(p: Player, source: string, stations: Result<Json, ApiException>, setResult: Result<(), ApiException>): (s: PlayerStep)
    ensures s.calls == [GetStations] || (|s.calls| == 2 && s.calls[0] == GetStations && s.calls[1].SetStation?)
    ensures s.player == p || s.player == p.(source := JStr(source))
    ensures s.player != p ==> s.escaped.None? && setResult.Ok? && |s.calls| == 2
    ensures stations.Ok? && Iterate(stations.value).Ok? && NoMatchBefore(Iterate(stations.value).value, source, |Iterate(stations.value).value|)
            ==> s == PlayerStep(p, [GetStations], None)
  {
    match stations
    case Err(e) => Handle(p, [GetStations], e, p)
    case Ok(list) =>
      match Iterate(list)
      case Err(err) => PlayerStep(p, [GetStations], Some(Unhandled(err)))
      case Ok(items) =>
        match FindStation(items, source)
        case Err(err) => PlayerStep(p, [GetStations], Some(Unhandled(err)))
        case Ok(None) => PlayerStep(p, [GetStations], None)
        case Ok(Some(i)) =>
          match Index(items[i], "id")
          case Err(err) => PlayerStep(p, [GetStations], Some(Unhandled(err)))
          case Ok(id) =>
            var calls := [GetStations, SetStation(id)];
            match setResult
            case Ok(_) => PlayerStep(p.(source := JStr(source)), calls, None)
            case Err(e) => Handle(p, calls, e, p)
  }

  /** Selecting a source the station list names sends the first such
      station's id and, once the controller accepts it, sets the source. */
  lemma {:induction false} SelectListedSource(p: Player, source: string, stations: Json, i: nat)
    requires stations.JList?
    requires i < |stations.items| && Index(stations.items[i], "name") == Ok(JStr(source))
    requires NoMatchBefore(stations.items, source, i)
    requires Index(stations.items[i], "id").Ok?
    ensures var s := SelectSource(p, source, Ok(stations), Ok(()));
            s.escaped.None? && s.player == p.(source := JStr(source))
            && s.calls == [GetStations, SetStation(Index(stations.items[i], "id").value)]
  {
  }

  /** Selecting a name no station has sends nothing but the station fetch
      and changes nothing. */
  lemma {:induction false} SelectUnknownSourceIsNoop(p: Player, source: string, stations: Json)
    requires ReadableStations(stations)
    requires forall i :: 0 <= i < |stations.items| ==> Index(stations.items[i], "name") != Ok(JStr(source))
    ensures SelectSource(p, source, Ok(stations), Ok(())) == PlayerStep(p, [GetStations], None)
  {
    assert NoMatchBefore(stations.items, source, |stations.items|);
  }

  /** A source the entity selects against the station list the last update
      read is one of the names in its source list. */
  lemma {:induction false} SelectedSourceIsListed(p: Player, info: Json, stations: Json, source: string, setResult: Result<(), ApiException>)
    requires ReadableInfo(info) && ReadableStations(stations)
    ensures var q := Update(p, Ok(info), Ok(stations)).player;
            var s := SelectSource(q, source, Ok(stations), setResult);
            s.player.source != q.source ==> JStr(source) in q.sourceList
  {
    UpdateReadsPayload(p, info, stations);
    var q := Update(p, Ok(info), Ok(stations)).player;
    var s := SelectSource(q, source, Ok(stations), setResult);
    if s.player.source != q.source {
      var i := FindStation(stations.items, source).value.value;
      assert q.sourceList[i] == JStr(source);
    }
  }
}

=== FILE: protocol.dfy ===
/**
 * The zone controller's wire protocol as both clients speak it: the
 * normalised host, the fixed headers, the login form, the six command
 * requests posted to `<host>/cmd`, and the `{status: {code}, data}` envelope
 * every command reply is wrapped in. Transport is abstract: a reply is either
 * a transport failure or a decoded JSON body.
 */
module Protocol {
  import opened Wrappers
  import opened PyJson

  /** The zone every command addresses: the clients set it to 1 in their
      constructors and never assign it again. */
  const ZoneId: int := 1

  /** The literal success marker of the reply envelope. */
  const SuccessCode: string := "OK"

  /** Python's `host.rstrip("/")`. */
  function StripTrailingSlashes(host: string): (r: string)
    ensures r <= host
    ensures r == [] || r[|r| - 1] != '/'
    ensures forall i :: |r| <= i < |host| ==> host[i] == '/'
  {
    if |host| > 0 && host[|host| - 1] == '/' then StripTrailingSlashes(host[..|host| - 1])
    else host
  }

  /** Stripping is the only way to cut `host` down to a prefix that does not
      end in '/' by removing nothing but '/': every such prefix is the
      stripped host, so stripping twice strips nothing more. */
  lemma {:induction false} StripTrailingSlashesUnique(host: string, r: string)
    requires r <= host
    requires r == [] || r[|r| - 1] != '/'
    requires forall i :: |r| <= i < |host| ==> host[i] == '/'
    ensures r == StripTrailingSlashes(host)
    ensures StripTrailingSlashes(r) == r
  {
    var s := StripTrailingSlashes(host);
    assert |r| == |s|;
    assert r == host[..|r|] == s;
  }

  const AcceptHeader: string := "application/json, text/javascript, */*; q=0.01"
  const FormContentType: string := "application/x-www-form-urlencoded"
  const CommandPage: string := "/zone.shtml"
  const LoginPage: string := "/public/login.shtml"

  /** The headers sent with every request; `page` is the page the request
      claims to come from. */
  function Headers(host: string, page: string): (h: map<string, string>)
    ensures "Origin" in h && h["Origin"] == host
    ensures "Referer" in h && h["Referer"] == host + page
  {
    map[
      "Accept" := AcceptHeader,
      "Content-Type" := FormContentType,
      "X-Requested-With" := "XMLHttpRequest",
      "Origin" := host,
      "Referer" := host + page
    ]
  }

  /** The six zone commands; `SetStation` carries the station id sent as
      `styleId`. */
  datatype Command =
    | GetStations
    | SetStation(styleId: Json)
    | GetPlaybackInfo
    | SkipSong
    | Play
    | Pause
  {
    /** The commands whose successful reply hands a payload back. */
    predicate Reads() {
      GetStations? || GetPlaybackInfo?
    }
  }

  /** The value of the `cmd` query parameter selecting the command. */
  function CommandName(cmd: Command): string {
    match cmd
    case GetStations => "zone.station.audio.getAll"
    case SetStation(_) => "zone.station.audio.set"
    case GetPlaybackInfo => "zone.getStatus"
    case SkipSong => "zone.track.skip"
    case Play => "zone.track.resume"
    case Pause => "zone.track.pause"
  }

  /** One POST to the command endpoint. */
  datatype Request = Request(
    url: string,
    params: map<string, string>,
    form: map<string, Json>,
    headers: map<string, string>,
    cookies: map<string, string>)

  /** The POST to the login endpoint. */
  datatype LoginRequest = LoginRequest(url: string, form: map<string, string>, headers: map<string, string>)

  function LoginRequestFor(host: string, username: string, password: string): (r: LoginRequest)
    ensures r.url == host + "/login"
    ensures r.form.Keys == {"user", "password", "rememberMe"}
    ensures r.form["user"] == username && r.form["password"] == password
    ensures r.form["rememberMe"] == "true"
    ensures "Origin" in r.headers && r.headers["Origin"] == host
    ensures "Referer" in r.headers && r.headers["Referer"] == host + LoginPage
  {
    LoginRequest(
      host + "/login",
      map["user" := username, "password" := password, "rememberMe" := "true"],
      Headers(host, LoginPage))
  }

  /** The request the clients post for `cmd`, carrying `cookies`. */
  function CommandRequest(host: string, cookies: map<string, string>, cmd: Command): (r: Request)
    ensures r.url == host + "/cmd"
    ensures "zoneId" in r.form && r.form["zoneId"] == JInt(ZoneId)
    ensures "Origin" in r.headers && r.headers["Origin"] == host
    ensures "Referer" in r.headers && r.headers["Referer"] == host + CommandPage
    ensures r.cookies == cookies
    ensures cmd.GetStations? ==>
              r.params == map["cmd" := "zone.station.audio.getAll"]
              && r.form == map["zoneId" := JInt(1), "sortBy" := JStr("CREATION_DATE"), "sortOrder" := JStr("NONE")]
    ensures cmd.SetStation? ==>
              r.params == map["cmd" := "zone.station.audio.set"]
              && r.form == map["zoneId" := JInt(1), "styleId" := cmd.styleId]
    ensures cmd.GetPlaybackInfo? ==>
              r.params == map["cmd" := "zone.getStatus"] && r.form == map["zoneId" := JInt(1)]
    ensures cmd.SkipSong? ==>
              r.params == map["cmd" := "zone.track.skip"] && r.form == map["zoneId" := JInt(1), "step" := JInt(1)]
    ensures cmd.Play? ==>
              r.params == map["cmd" := "zone.track.resume"] && r.form == map["zoneId" := JInt(1)]
    ensures cmd.Pause? ==>
              r.params == map["cmd" := "zone.track.pause", "operationId" := "0"] && r.form == map["zoneId" := JInt(1)]
  {
    var zone := map["zoneId" := JInt(ZoneId)];
    var (params, form) :=
      match cmd
      case GetStations =>
        (map["cmd" := CommandName(cmd)],
         zone["sortBy" := JStr("CREATION_DATE")]["sortOrder" := JStr("NONE")])
      case SetStation(id) => (map["cmd" := CommandName(cmd)], zone["styleId" := id])
      case SkipSong => (map["cmd" := CommandName(cmd)], zone["step" := JInt(1)])
      case Pause => (map["cmd" := CommandName(cmd), "operationId" := "0"], zone)
      case _ => (map["cmd" := CommandName(cmd)], zone);
    Request(host + "/cmd", params, form, Headers(host, CommandPage), cookies)
  }

  /** The command a request asks for, as the controller reads it from the
      `cmd` parameter and the form: `None` for a request that names no
      command or lacks a field its command needs. */
  function RequestedCommand(r: Request): Option<Command> {
    if "cmd" !in r.params || "zoneId" !in r.form then None
    else
      var name := r.params["cmd"];
      if name == "zone.station.audio.getAll" then
        if "sortBy" in r.form && "sortOrder" in r.form then Some(GetStations) else None
      else if name == "zone.station.audio.set" then
        if "styleId" in r.form then Some(SetStation(r.form["styleId"])) else None
      else if name == "zone.getStatus" then Some(GetPlaybackInfo)
      else if name == "zone.track.skip" then
        if "step" in r.form then Some(SkipSong) else None
      else if name == "zone.track.resume" then Some(Play)
      else if name == "zone.track.pause" then
        if "operationId" in r.params then Some(Pause) else None
      else None
  }

  /** Every request names exactly the command it was built for, with its
      argument, so no two commands share a request. */
  lemma RequestNamesItsCommand(host: string, cookies: map<string, string>, cmd: Command)
    ensures RequestedCommand(CommandRequest(host, cookies, cmd)) == Some(cmd)
  {
  }

  /** What the transport hands back for a command request. */
  datatype Reply = ReplyTransportFailure | ReplyBody(body: Json)

  /** Why a command exchange failed: the transport (a network error or a
      non-2xx status), a non-"OK" status code (carrying the envelope's
      `status` object verbatim), or a body without the fields the code reads. */
  datatype CommandFailure =
    | TransportFailure
    | StatusNotOk(status: Json)
    | Malformed(error: PyError)

  /** `value[key]` with its Python error turned into a command failure. */
  function Field(value: Json, key: string): (r: Result<Json, CommandFailure>)
    ensures r.Ok? <==> Index(value, key).Ok?
    ensures r.Ok? ==> r.value == Index(value, key).value
    ensures r.Err? ==> r.error == Malformed(Index(value, key).error)
  {
    match Index(value, key)
    case Ok(v) => Ok(v)
    case Err(e) => Err(Malformed(e))
  }

  /** Checks the reply envelope of `cmd` and extracts its payload: the
      `styles` list for `GetStations`, the whole `data` object for
      `GetPlaybackInfo`, nothing for the control commands. */
  function Unwrap(cmd: Command, body: Json): (r: Result<Option<Json>, CommandFailure>)
    ensures r.Ok? ==> Index(body, "status").Ok? && Index(Index(body, "status").value, "code") == Ok(JStr(SuccessCode))
    ensures Index(body, "status").Err? ==> r == Err(Malformed(Index(body, "status").error))
    ensures r.Ok? ==> (r.value.Some? <==> cmd.Reads())
    ensures r.Err? && r.error.StatusNotOk? ==>
              Index(body, "status") == Ok(r.error.status)
              && Index(r.error.status, "code").Ok?
              && Index(r.error.status, "code").value != JStr(SuccessCode)
  {
    var status :- Field(body, "status");
    var code :- Field(status, "code");
    if code != JStr(SuccessCode) then Err(StatusNotOk(status))
    else if cmd.GetStations? then
      var data :- Field(body, "data");
      var styles :- Field(data, "styles");
      Ok(Some(styles))
    else if cmd.GetPlaybackInfo? then
      var data :- Field(body, "data");
      Ok(Some(data))
    else Ok(None)
  }

  /** The result of one command exchange. */
  function Interpret(cmd: Command, reply: Reply): (r: Result<Option<Json>, CommandFailure>)
    ensures reply.ReplyTransportFailure? ==> r == Err(TransportFailure)
    ensures r.Ok? ==> reply.ReplyBody?
  {
    match reply
    case ReplyTransportFailure => Err(TransportFailure)
    case ReplyBody(body) => Unwrap(cmd, body)
  }

  /** The reply's `status.code` is the literal "OK". */
  predicate StatusOk(body: Json) {
    Index(body, "status").Ok? && Index(Index(body, "status").value, "code") == Ok(JStr(SuccessCode))
  }

  /** The reply has a `status.code`, and it is not "OK". */
  predicate StatusNotOkay(body: Json) {
    Index(body, "status").Ok? && Index(Index(body, "status").value, "code").Ok?
    && Index(Index(body, "status").value, "code").value != JStr(SuccessCode)
  }

  /** On any reply whose status code is "OK": `get_playback_info` yields
      `data` and `get_stations` yields `data.styles`, each failing only when
      that field is missing; the control commands yield nothing. */
  lemma OkStatusYieldsPayload(cmd: Command, body: Json)
    requires StatusOk(body)
    ensures var r := Unwrap(cmd, body);
            var data := Index(body, "data");
            (cmd.GetPlaybackInfo? ==>
               (r.Ok? <==> data.Ok?) && (data.Ok? ==> r == Ok(Some(data.value))))
            && (cmd.GetStations? ==>
                  (r.Ok? <==> data.Ok? && Index(data.value, "styles").Ok?)
                  && (data.Ok? && Index(data.value, "styles").Ok? ==> r == Ok(Some(Index(data.value, "styles").value))))
            && (!cmd.Reads() ==> r == Ok(None))
            && (r.Err? ==> r.error.Malformed?)
  {
  }

  /** On any reply whose status code is something other than "OK", every
      one of the six commands fails with the reply's status object. */
  lemma NonOkStatusFails(cmd: Command, body: Json)
    requires StatusNotOkay(body)
    ensures Unwrap(cmd, body) == Err(StatusNotOk(Index(body, "status").value))
  {
  }

  /** What a client does that is visible outside it, in order. */
  datatype Effect =
    | Probe                           // the session-validity probe of `_check_session`
    | LoginPost(login: LoginRequest)
    | CommandPost(request: Request)
    | SessionCallback                 // the registered session-update callback runs
    | OpenHttp                        // an HTTP client session is created
    | CloseHttp                       // the HTTP client session is closed

  function CountCallbacks(effects: seq<Effect>): nat {
    if |effects| == 0 then 0
    else (if effects[0].SessionCallback? then 1 else 0) + CountCallbacks(effects[1..])
  }

  function CountLogins(effects: seq<Effect>): nat {
    if |effects| == 0 then 0
    else (if effects[0].LoginPost? then 1 else 0) + CountLogins(effects[1..])
  }

  lemma {:induction false} CountsAdd(a: seq<Effect>, b: seq<Effect>)
    ensures CountCallbacks(a + b) == CountCallbacks(a) + CountCallbacks(b)
    ensures CountLogins(a + b) == CountLogins(a) + CountLogins(b)
  {
    if |a| > 0 {
      assert (a + b)[1..] == a[1..] + b;
      CountsAdd(a[1..], b);
    } else {
      assert a + b == b;
    }
  }

  /** Appending a command request to effects that hold none makes it the
      only one, and the last effect. */
  lemma CommandPostLast(pre: seq<Effect>, post: Effect)
    requires forall e :: e in pre ==> !e.CommandPost?
    ensures forall i :: 0 <= i < |pre + [post]| && (pre + [post])[i].CommandPost? ==> i == |pre|
  {
    forall i | 0 <= i < |pre| ensures !(pre + [post])[i].CommandPost? {
      assert (pre + [post])[i] == pre[i] && pre[i] in pre;
    }
  }
}

=== FILE: py_json.dfy ===
/**
 * The server's JSON payloads as the integration's Python code sees them after
 * `json.loads`, together with the few Python operations the code applies to
 * them: truthiness, `key in value`, `value[key]`, `value.get(key, default)` and
 * `for item in value`. Each operation raises the error Python raises when the
 * payload does not have the shape the code expects.
 */
module PyJson {
  import opened Wrappers

  /** A decoded JSON value. `JNull` is Python's `None`; a `JDict` keeps the
      object's fields in document order. Numbers are integers only. */
  datatype Json =
    | JNull
    | JBool(b: bool)
    | JInt(i: int)
    | JStr(s: string)
    | JList(items: seq<Json>)
    | JDict(fields: seq<(string, Json)>)

  /** The exceptions a wrongly shaped payload makes Python raise. */
  datatype PyError = KeyError(key: string) | TypeError | AttributeError

  /** Python's `bool(value)`. */
  predicate Truthy(j: Json) {
    match j
    case JNull => false
    case JBool(b) => b
    case JInt(i) => i != 0
    case JStr(s) => s != ""
    case JList(items) => items != []
    case JDict(fields) => fields != []
  }

  predicate HasKey(fields: seq<(string, Json)>, key: string) {
    exists i :: 0 <= i < |fields| && fields[i].0 == key
  }

  /** The value the dict built from `fields` holds under `key`: when a key
      repeats, the later field overrides the earlier one, as in `json.loads`. */
  function Lookup(fields: seq<(string, Json)>, key: string): (r: Option<Json>)
    ensures r.None? <==> !HasKey(fields, key)
    ensures r.Some? ==> exists i :: 0 <= i < |fields| && fields[i] == (key, r.value)
                                    && forall j :: i < j < |fields| ==> fields[j].0 != key
  {
    if |fields| == 0 then None
    else if fields[|fields| - 1].0 == key then Some(fields[|fields| - 1].1)
    else Lookup(fields[..|fields| - 1], key)
  }

  /** `needle in hay` on two strings: `needle` is a substring of `hay`. */
  predicate Occurs(needle: string, hay: string)
    decreases |hay|
  {
    needle <= hay || (|hay| > 0 && Occurs(needle, hay[1..]))
  }

  /** Python's `key in container` for a string `key`. */
  function Contains(container: Json, key: string): (r: Result<bool, PyError>)
    ensures r.Err? <==> container.JNull? || container.JBool? || container.JInt?
    ensures container.JDict? ==> r == Ok(HasKey(container.fields, key))
  {
    match container
    case JDict(fields) => Ok(Lookup(fields, key).Some?)
    case JList(items) => Ok(JStr(key) in items)
    case JStr(s) => Ok(Occurs(key, s))
    case _ => Err(TypeError)
  }

  /** Python's `container[key]` for a string `key`: only a dict can be
      indexed by a string. */
  function Index(container: Json, key: string): (r: Result<Json, PyError>)
    ensures r.Ok? ==> container.JDict? && HasKey(container.fields, key)
    ensures container.JDict? && !HasKey(container.fields, key) ==> r == Err(KeyError(key))
    ensures !container.JDict? ==> r == Err(TypeError)
  {
    match container
    case JDict(fields) =>
      (match Lookup(fields, key)
       case Some(v) => Ok(v)
       case None => Err(KeyError(key)))
    case _ => Err(TypeError)
  }

  /** Python's `container.get(key, default)`: only a dict has `get`. */
  function Get(container: Json, key: string, default: Json): (r: Result<Json, PyError>)
    ensures r.Err? <==> !container.JDict?
    ensures container.JDict? && !HasKey(container.fields, key) ==> r == Ok(default)
  {
    match container
    case JDict(fields) =>
      (match Lookup(fields, key)
       case Some(v) => Ok(v)
       case None => Ok(default))
    case _ => Err(AttributeError)
  }

  /** A key is in `[f] + rest` when it is `f`'s or one of `rest`'s. */
  lemma HasKeyCons(f: (string, Json), rest: seq<(string, Json)>)
    ensures forall k :: HasKey([f] + rest, k) <==> f.0 == k || HasKey(rest, k)
  {
    forall k ensures HasKey([f] + rest, k) ==> f.0 == k || HasKey(rest, k) {
      if HasKey([f] + rest, k) && f.0 != k {
        var i :| 0 <= i < |[f] + rest| && ([f] + rest)[i].0 == k;
        assert rest[i - 1].0 == k;
      }
    }
    forall k ensures f.0 == k || HasKey(rest, k) ==> HasKey([f] + rest, k) {
      if f.0 == k {
        assert ([f] + rest)[0].0 == k;
      } else if HasKey(rest, k) {
        var i :| 0 <= i < |rest| && rest[i].0 == k;
        assert ([f] + rest)[i + 1].0 == k;
      }
    }
  }

  /** `fields` without the fields named `key`. */
  function Without(fields: seq<(string, Json)>, key: string): (r: seq<(string, Json)>)
    ensures |r| <= |fields|
    ensures forall k :: HasKey(r, k) <==> HasKey(fields, k) && k != key
  {
    if |fields| == 0 then []
    else
      assert fields == [fields[0]] + fields[1..];
      HasKeyCons(fields[0], fields[1..]);
      if fields[0].0 == key then Without(fields[1..], key)
      else
        var rest := Without(fields[1..], key);
        HasKeyCons(fields[0], rest);
        [fields[0]] + rest
  }

  /** The keys a Python dict built from `fields` yields when iterated: each
      key once, in the order of its first appearance. */
  function DistinctKeys(fields: seq<(string, Json)>): (keys: seq<string>)
    ensures forall k :: k in keys <==> HasKey(fields, k)
    ensures |keys| == 0 <==> |fields| == 0
    decreases |fields|
  {
    if |fields| == 0 then []
    else
      assert fields == [fields[0]] + fields[1..];
      HasKeyCons(fields[0], fields[1..]);
      [fields[0].0] + DistinctKeys(Without(fields[1..], fields[0].0))
  }

  /** Python's `for item in value`: a list yields its items, a string its
      one-character strings, a dict its keys; `None`, booleans and numbers
      are not iterable. */
  function Iterate(j: Json): (r: Result<seq<Json>, PyError>)
    ensures r.Err? <==> j.JNull? || j.JBool? || j.JInt?
    ensures j.JList? ==> r == Ok(j.items)
    ensures r.Ok? && !j.JList? ==> forall x :: x in r.value ==> x.JStr?
    ensures r.Ok? ==> (|r.value| == 0 <==> !Truthy(j))
  {
    match j
    case JList(items) => Ok(items)
    case JStr(s) => Ok(seq(|s|, i requires 0 <= i < |s| => JStr([s[i]])))
    case JDict(fields) =>
      var keys := DistinctKeys(fields);
      Ok(seq(|keys|, i requires 0 <= i < |keys| => JStr(keys[i])))
    case _ => Err(TypeError)
  }

  /** On a dict the three ways of reading a key agree: `key in d` holds
      exactly when `d[key]` succeeds, and `d.get(key, default)` is `d[key]`
      when the key is there and `default` when it is not. */
  lemma DictAccessAgrees(d: Json, key: string, default: Json)
    requires d.JDict?
    ensures Contains(d, key) == Ok(Index(d, key).Ok?)
    ensures Index(d, key).Ok? ==> Get(d, key, default) == Index(d, key)
    ensures Index(d, key).Err? ==> Get(d, key, default) == Ok(default)
  {
  }
}

=== FILE: remote.dfy ===
/**
 * `PandoraBusinessRemote`: a playback-state view over the blocking client.
 * Its transitions take the client calls' outcomes as inputs (what
 * `ensure_session`, the command and `get_playback_info` returned or raised)
 * and report which client calls were made, the new record, and the
 * exception re-raised, if any.
 */
module Remote {
  import opened Wrappers
  import opened PyJson
  import opened Protocol
  import opened Session
  import opened PandoraClient

  /** The remote's `_state` string: "idle", "playing", "paused", "stopped". */
  datatype PlayState = Idle | Playing | Paused | Stopped

  /** The remote's record; `currentStation` is `JNull` for Python's `None`. */
  datatype Remote = Remote(deviceSetup: bool, state: PlayState, currentStation: Json)

  /** A call the remote makes on its client. */
  datatype ClientCall = EnsureSessionCall | CommandCall(command: Command)

  /** What a remote method re-raises: a client failure, or the error a
      wrongly shaped status payload makes Python raise. */
  datatype RemoteError = ClientRaised(failure: Failure) | StatusRaised(error: PyError)

  datatype RemoteStep = RemoteStep(remote: Remote, calls: seq<ClientCall>, raised: Option<RemoteError>)

  /** The constructor: idle, not set up, no station, and a client with the
      remote's session-update callback registered. */
  function NewRemote(host: string, username: string, password: string): (r: (Remote, Core))
    ensures r.0.state == Idle && !r.0.deviceSetup && r.0.currentStation == JNull
    ensures r.1.callback && r.1.creds == NewClient(host, username, password).creds
    ensures r.1.host == StripTrailingSlashes(host)
  {
    (Remote(false, Idle, JNull), RegisterCallback(NewClient(host, username, password)))
  }

  /** The shape of `play`, `pause`, `stop` and `next_track`: `ensure_session`,
      then the client command, then the new state. If either call raises,
      the record is left as it was and the error is re-raised. */
  function Control(r: Remote, ensured: Result<(), Failure>, commanded: Result<(), Failure>, cmd: Command, target: PlayState): (s: RemoteStep)
    ensures s.raised.None? <==> ensured.Ok? && commanded.Ok?
    ensures s.raised.None? ==> s.remote == r.(state := target)
    ensures s.raised.Some? ==> s.remote == r
    ensures ensured.Err? ==> s.raised == Some(ClientRaised(ensured.error))
    ensures ensured.Ok? && commanded.Err? ==> s.raised == Some(ClientRaised(commanded.error))
    ensures |s.calls| >= 1 && s.calls[0] == EnsureSessionCall
    ensures CommandCall(cmd) in s.calls <==> ensured.Ok?
  {
    if ensured.Err? then
      RemoteStep(r, [EnsureSessionCall], Some(ClientRaised(ensured.error)))
    else if commanded.Err? then
      RemoteStep(r, [EnsureSessionCall, CommandCall(cmd)], Some(ClientRaised(commanded.error)))
    else
      RemoteStep(r.(state := target), [EnsureSessionCall, CommandCall(cmd)], None)
  }

  /** `play`: on success the state is "playing"; the client's `play` is
      sent only after `ensure_session` succeeded. */
  function Play(r: Remote, ensured: Result<(), Failure>, played: Result<(), Failure>): (s: RemoteStep)
    ensures s.raised.None? <==> ensured.Ok? && played.Ok?
    ensures s.raised.None? ==> s.remote == r.(state := Playing)
    ensures s.raised.Some? ==> s.remote == r
    ensures CommandCall(Protocol.Play) in s.calls <==> ensured.Ok?
  {
    Control(r, ensured, played, Protocol.Play, Playing)
  }

  /** `pause`: on success the state is "paused". */
  function PauseRemote(r: Remote, ensured: Result<(), Failure>, paused: Result<(), Failure>): (s: RemoteStep)
    ensures s.raised.None? <==> ensured.Ok? && paused.Ok?
    ensures s.raised.None? ==> s.remote == r.(state := Paused)
    ensures s.raised.Some? ==> s.remote == r
    ensures CommandCall(Protocol.Pause) in s.calls <==> ensured.Ok?
  {
    Control(r, ensured, paused, Protocol.Pause, Paused)
  }

  /** The controller has no stop, so `stop` sends the client's `pause`; on
      success the state is "stopped". */
  function Stop(r: Remote, ensured: Result<(), Failure>, paused: Result<(), Failure>): (s: RemoteStep)
    ensures s.raised.None? <==> ensured.Ok? && paused.Ok?
    ensures s.raised.None? ==> s.remote == r.(state := Stopped)
    ensures s.raised.Some? ==> s.remote == r
    ensures CommandCall(Protocol.Pause) in s.calls <==> ensured.Ok?
    ensures forall c :: c in s.calls ==> c == EnsureSessionCall || c == CommandCall(Protocol.Pause)
  {
    Control(r, ensured, paused, Protocol.Pause, Stopped)
  }

  /** `next_track`: sends `skip_song` and never changes the record. */
  function NextTrack(r: Remote, ensured: Result<(), Failure>, skipped: Result<(), Failure>): (s: RemoteStep)
    ensures s.remote == r
    ensures s.raised.None? <==> ensured.Ok? && skipped.Ok?
    ensures CommandCall(SkipSong) in s.calls <==> ensured.Ok?
  {
    Control(r, ensured, skipped, SkipSong, r.state)
  }

  /** On success `play`, `pause` and `stop` land in "playing", "paused" and
      "stopped"; `stop` makes exactly the client calls `pause` makes; and
      `next_track` never changes the record. */
  lemma ControlOutcomes(r: Remote, ensured: Result<(), Failure>, commanded: Result<(), Failure>)
    ensures ensured.Ok? && commanded.Ok? ==>
              Play(r, ensured, commanded).remote.state == Playing
              && PauseRemote(r, ensured, commanded).remote.state == Paused
              && Stop(r, ensured, commanded).remote.state == Stopped
    ensures Stop(r, ensured, commanded).calls == PauseRemote(r, ensured, commanded).calls
    ensures NextTrack(r, ensured, commanded).remote == r
    ensures ensured.Err? || commanded.Err? ==>
              Play(r, ensured, commanded).remote == r
              && PauseRemote(r, ensured, commanded).remote == r
              && Stop(r, ensured, commanded).remote == r
  {
  }

  /** How `update` reads the playback state string. */
  function PlaybackTag(state: Json): (s: PlayState)
    ensures s != Idle
    ensures s == Playing <==> state == JStr("playing")
    ensures s == Paused <==> state == JStr("paused")
  {
    if state == JStr("playing") then Playing
    else if state == JStr("paused") then Paused
    else Stopped
  }

  /** `if "station" in status: self._current_station = status["station"]` */
  function StationStep(r: Remote, status: Json): (res: Result<Remote, PyError>)
    ensures res.Ok? ==> res.value.state == r.state && res.value.deviceSetup == r.deviceSetup
    ensures status.JDict? && HasKey(status.fields, "station") ==>
              res == Ok(r.(currentStation := Lookup(status.fields, "station").value))
    ensures status.JDict? && !HasKey(status.fields, "station") ==> res == Ok(r)
    ensures !status.JDict? ==> res == (if Contains(status, "station") == Ok(false) then Ok(r) else Err(TypeError))
  {
    var has :- Contains(status, "station");
    if !has then Ok(r)
    else
      var station :- Index(status, "station");
      Ok(r.(currentStation := station))
  }

  /** The playback block of `update`: with a "playback" entry, its "state"
      (default "stopped") decides the new state. */
  function PlaybackStep(r: Remote, status: Json): (res: Result<Remote, PyError>)
    ensures res.Ok? ==> res.value.currentStation == r.currentStation && res.value.deviceSetup == r.deviceSetup
    ensures status.JDict? && !HasKey(status.fields, "playback") ==> res == Ok(r)
    ensures status.JDict? && HasKey(status.fields, "playback") ==>
              var playback := Lookup(status.fields, "playback").value;
              (playback.JDict? ==> res == Ok(r.(state := PlaybackTag(Get(playback, "state", JStr("stopped")).value))))
              && (!playback.JDict? ==> res == Err(AttributeError))
    ensures !status.JDict? ==> res == (if Contains(status, "playback") == Ok(false) then Ok(r) else Err(TypeError))
  {
    var has :- Contains(status, "playback");
    if !has then Ok(r)
    else
      var playback :- Index(status, "playback");
      var state :- Get(playback, "state", JStr("stopped"));
      Ok(r.(state := PlaybackTag(state)))
  }

  /** `update`: `ensure_session`, `get_playback_info`, then the station and
      playback blocks. Success sets `device_setup`; any failure clears it and
      re-raises, keeping whatever the blocks had already assigned. */
  function Update(r: Remote, ensured: Result<(), Failure>, status: Result<Json, Failure>): (s: RemoteStep)
    ensures s.remote.deviceSetup <==> s.raised.None?
    ensures s.calls == (if ensured.Ok? then [EnsureSessionCall, CommandCall(GetPlaybackInfo)] else [EnsureSessionCall])
    ensures ensured.Err? ==> s.raised == Some(ClientRaised(ensured.error)) && s.remote == r.(deviceSetup := false)
    ensures ensured.Ok? && status.Err? ==> s.raised == Some(ClientRaised(status.error)) && s.remote == r.(deviceSetup := false)
    ensures s.raised.None? ==> s.remote.state == Idle ==> r.state == Idle
  {
    if ensured.Err? then
      RemoteStep(r.(deviceSetup := false), [EnsureSessionCall], Some(ClientRaised(ensured.error)))
    else
      var calls := [EnsureSessionCall, CommandCall(GetPlaybackInfo)];
      match status
      case Err(f) => RemoteStep(r.(deviceSetup := false), calls, Some(ClientRaised(f)))
      case Ok(payload) =>
        match StationStep(r, payload)
        case Err(e) => RemoteStep(r.(deviceSetup := false), calls, Some(StatusRaised(e)))
        case Ok(r1) =>
          match PlaybackStep(r1, payload)
          case Err(e) => RemoteStep(r1.(deviceSetup := false), calls, Some(StatusRaised(e)))
          case Ok(r2) => RemoteStep(r2.(deviceSetup := true), calls, None)
  }

  /** `_on_session_update`: set `device_setup`, then `update`. */
  function OnSessionUpdate(r: Remote, ensured: Result<(), Failure>, status: Result<Json, Failure>): (s: RemoteStep)
    ensures s.remote.deviceSetup <==> s.raised.None?
    ensures s.calls == (if ensured.Ok? then [EnsureSessionCall, CommandCall(GetPlaybackInfo)] else [EnsureSessionCall])
    ensures s.raised.Some? ==> s.remote.state == r.state
  {
    Update(r.(deviceSetup := true), ensured, status)
  }

  /** `update` assigns `device_setup` on every path, so the callback's own
      assignment never shows: the callback is exactly an `update`. */
  lemma SessionCallbackIsUpdate(r: Remote, ensured: Result<(), Failure>, status: Result<Json, Failure>)
    ensures OnSessionUpdate(r, ensured, status) == Update(r, ensured, status)
  {
  }

  /** For a dict payload whose "playback" entry is a dict, `update` succeeds
      and maps "playing" to playing, "paused" to paused, and any other value
      or a missing "state" to stopped. */
  lemma {:induction false} UpdateMapsPlayback(r: Remote, status: Json)
    requires status.JDict?
    requires Index(status, "playback").Ok? && Index(status, "playback").value.JDict?
    ensures var s := Update(r, Ok(()), Ok(status));
            var playback := Index(status, "playback").value;
            s.raised.None? && s.remote.deviceSetup
            && (s.remote.state == Playing <==> Lookup(playback.fields, "state") == Some(JStr("playing")))
            && (s.remote.state == Paused <==> Lookup(playback.fields, "state") == Some(JStr("paused")))
            && (s.remote.state == Stopped <==>
                  Lookup(playback.fields, "state") !in {Some(JStr("playing")), Some(JStr("paused"))})
  {
    DictAccessAgrees(status, "station", JNull);
    DictAccessAgrees(status, "playback", JNull);
    var r1 := StationStep(r, status).value;
    var playback := Index(status, "playback").value;
    assert PlaybackStep(r1, status) == Ok(r1.(state := PlaybackTag(Get(playback, "state", JStr("stopped")).value)));
  }

  /** On a dict payload `update` replaces the station exactly when the
      payload has a "station" entry, whatever happens afterwards, and with
      no "playback" entry it succeeds and leaves the state alone. */
  lemma {:induction false} UpdateTouchesOnlyPresentEntries(r: Remote, status: Json)
    requires status.JDict?
    ensures var s := Update(r, Ok(()), Ok(status));
            (HasKey(status.fields, "station") ==> s.remote.currentStation == Lookup(status.fields, "station").value)
            && (!HasKey(status.fields, "station") ==> s.remote.currentStation == r.currentStation)
            && (!HasKey(status.fields, "playback") ==> s.raised.None? && s.remote.state == r.state)
  {
    var r1 := StationStep(r, status).value;
    assert r1.currentStation == (if HasKey(status.fields, "station") then Lookup(status.fields, "station").value else r.currentStation);
    if PlaybackStep(r1, status).Ok? {
      assert PlaybackStep(r1, status).value.currentStation == r1.currentStation;
    }
  }
}

=== FILE: session.dfy ===
/**
 * The session logic both clients share: the held credentials (a session id
 * and an optional remember-me token), the cookies built from them, the
 * change-detecting session update that runs the registered callback, the
 * login exchange and how a login is judged to have failed, the validity
 * check that decides whether a login is needed, and one command exchange.
 *
 * The validity probe of `_check_session` is an oracle: in the source it
 * calls `get_playback_info`, which calls `ensure_session`, which calls
 * `_check_session` again, with no base case once a session id is held.
 */
module Session {
  import opened Wrappers
  import opened PyJson
  import opened Protocol

  /** A credential as Python holds it: `None` or a string. */
  type Token = Option<string>

  /** Python's truthiness of a `str | None`: present and non-empty. */
  predicate Present(t: Token) {
    t.Some? && t.value != ""
  }

  datatype Credentials = Credentials(sessionId: Token, rememberMe: Token)

  /** The credentials of a freshly built client: nothing held. */
  const NoCredentials: Credentials := Credentials(None, None)

  /** The cookies attached to a command request. */
  function Cookies(c: Credentials): (m: map<string, string>)
    ensures m.Keys <= {"sessionId", "rememberMe"}
    ensures "sessionId" in m <==> Present(c.sessionId)
    ensures "rememberMe" in m <==> Present(c.rememberMe)
    ensures "sessionId" in m ==> Some(m["sessionId"]) == c.sessionId
    ensures "rememberMe" in m ==> Some(m["rememberMe"]) == c.rememberMe
  {
    var withSession := if Present(c.sessionId) then map["sessionId" := c.sessionId.value] else map[];
    if Present(c.rememberMe) then withSession["rememberMe" := c.rememberMe.value] else withSession
  }

  /** The state both clients keep about the server: the normalised host,
      the login credentials, the held session credentials and whether a
      session-update callback is registered. */
  datatype Core = Core(
    host: string,
    username: string,
    password: string,
    creds: Credentials,
    callback: bool)

  /** The constructor: the host loses its trailing '/', nothing is held and
      no callback is registered. */
  function NewCore(host: string, username: string, password: string): (c: Core)
    ensures c.host <= host && (c.host == [] || c.host[|c.host| - 1] != '/')
    ensures forall i :: |c.host| <= i < |host| ==> host[i] == '/'
    ensures c.username == username && c.password == password
    ensures !Present(c.creds.sessionId) && !Present(c.creds.rememberMe)
    ensures !c.callback
  {
    Core(StripTrailingSlashes(host), username, password, NoCredentials, false)
  }

  /** `set_session_update_callback`. */
  function RegisterCallback(c: Core): (r: Core)
    ensures r.callback
    ensures r.(callback := c.callback) == c
  {
    c.(callback := true)
  }

  /** A client operation's outcome: the new state, what it did, and what it
      returned or raised. */
  datatype Step<+T, +E> = Step(core: Core, effects: seq<Effect>, result: Result<T, E>)

  /** `_update_session(session_id, remember_me)`: afterwards the given
      tokens are held whatever was held before, and the callback, when one
      is registered, runs once if they differ from what was held and not at
      all otherwise. */
  function UpdateSession(c: Core, sessionId: Token, rememberMe: Token): (r: Step<(), ()>)
    ensures r.core == c.(creds := Credentials(sessionId, rememberMe))
    ensures r.result.Ok?
    ensures forall e :: e in r.effects ==> e.SessionCallback?
    ensures CountCallbacks(r.effects) == (if c.callback && c.creds != Credentials(sessionId, rememberMe) then 1 else 0)
  {
    if sessionId != c.creds.sessionId || rememberMe != c.creds.rememberMe then
      Step(c.(creds := Credentials(sessionId, rememberMe)), if c.callback then [SessionCallback] else [], Ok(()))
    else
      Step(c, [], Ok(()))
  }

  /** An update with the tokens already held changes nothing and runs no
      callback, so repeating an update is harmless. */
  lemma UpdateSessionIdempotent(c: Core, sessionId: Token, rememberMe: Token)
    ensures var once := UpdateSession(c, sessionId, rememberMe);
            var twice := UpdateSession(once.core, sessionId, rememberMe);
            twice.core == once.core && CountCallbacks(twice.effects) == 0
  {
  }

  /** What the transport hands back for the login POST: a failure (network
      error or non-2xx status) or the response's cookies. */
  datatype LoginReply = LoginTransportFailure | LoginCookies(cookies: map<string, string>)

  /** Why a login failed. */
  datatype LoginFailure = LoginTransport | NoSessionId

  /** How a login reply is judged: it fails on a transport failure and when
      no non-empty "sessionId" cookie came back; otherwise it yields that
      session id and the "rememberMe" cookie, which may be missing. */
  function JudgeLogin(reply: LoginReply): (r: Result<Credentials, LoginFailure>)
    ensures reply.LoginTransportFailure? ==> r == Err(LoginTransport)
    ensures reply.LoginCookies? ==>
              (r.Ok? <==> "sessionId" in reply.cookies && reply.cookies["sessionId"] != "")
    ensures r.Err? && reply.LoginCookies? ==> r.error == NoSessionId
    ensures r.Ok? ==> Present(r.value.sessionId) && r.value.sessionId == Some(reply.cookies["sessionId"])
    ensures r.Ok? ==> (r.value.rememberMe.Some? <==> "rememberMe" in reply.cookies)
    ensures r.Ok? && "rememberMe" in reply.cookies ==> r.value.rememberMe == Some(reply.cookies["rememberMe"])
  {
    match reply
    case LoginTransportFailure => Err(LoginTransport)
    case LoginCookies(cookies) =>
      var sessionId := if "sessionId" in cookies then Some(cookies["sessionId"]) else None;
      var rememberMe := if "rememberMe" in cookies then Some(cookies["rememberMe"]) else None;
      if !Present(sessionId) then Err(NoSessionId) else Ok(Credentials(sessionId, rememberMe))
  }

  /** `login`: post the credentials, judge the reply, and on success hold
      the returned tokens through the session update. A failed login leaves
      the state as it was and runs no callback. */
  function Login(c: Core, reply: LoginReply): (r: Step<(), LoginFailure>)
    ensures |r.effects| >= 1 && r.effects[0] == LoginPost(LoginRequestFor(c.host, c.username, c.password))
    ensures CountLogins(r.effects) == 1
    ensures r.result.Err? ==> r.core == c && r.effects == [r.effects[0]] && JudgeLogin(reply) == Err(r.result.error)
    ensures r.result.Ok? ==> JudgeLogin(reply).Ok? && r.core == c.(creds := JudgeLogin(reply).value)
    ensures r.result.Ok? ==> Present(r.core.creds.sessionId)
    ensures CountCallbacks(r.effects) == (if r.result.Ok? && c.callback && r.core.creds != c.creds then 1 else 0)
    ensures forall e :: e in r.effects ==> e.LoginPost? || e.SessionCallback?
  {
    var post := LoginPost(LoginRequestFor(c.host, c.username, c.password));
    match JudgeLogin(reply)
    case Err(f) => Step(c, [post], Err(f))
    case Ok(creds) =>
      var u := UpdateSession(c, creds.sessionId, creds.rememberMe);
      CountsAdd([post], u.effects);
      Step(u.core, [post] + u.effects, Ok(()))
  }

  /** Logging in twice with the same reply runs the callback at most once:
      the second login finds the tokens already held. */
  lemma {:induction false} RepeatedLoginNotifiesOnce(c: Core, reply: LoginReply)
    ensures var first := Login(c, reply);
            var second := Login(first.core, reply);
            second.core == first.core && CountCallbacks(second.effects) == 0
  {
    var first := Login(c, reply);
    if first.result.Ok? {
      assert first.core.creds == JudgeLogin(reply).value;
    }
  }

  /** `_check_session`: with no session id held it answers False without
      any request; otherwise it sends the probe, and a probe that raised
      (`probeOk` false) answers False. */
  function CheckSession(c: Core, probeOk: bool): (r: Step<bool, ()>)
    ensures r.core == c && r.result.Ok?
    ensures r.result.value ==> Present(c.creds.sessionId) && probeOk
    ensures Present(c.creds.sessionId) && probeOk ==> r.result.value
    ensures r.effects == [] <==> !Present(c.creds.sessionId)
    ensures forall e :: e in r.effects ==> e.Probe?
  {
    if !Present(c.creds.sessionId) then Step(c, [], Ok(false))
    else Step(c, [Probe], Ok(probeOk))
  }

  /** One command exchange on an established session: post the request for
      `cmd` with the held cookies and interpret the reply. It never changes
      the held credentials, whatever the reply. */
  function Exchange(c: Core, cmd: Command, reply: Reply): (r: Step<Option<Json>, CommandFailure>)
    ensures r.core == c
    ensures r.effects == [CommandPost(CommandRequest(c.host, Cookies(c.creds), cmd))]
    ensures reply.ReplyTransportFailure? ==> r.result == Err(TransportFailure)
    ensures r.result.Ok? ==> (r.result.value.Some? <==> cmd.Reads())
  {
    Step(c, [CommandPost(CommandRequest(c.host, Cookies(c.creds), cmd))], Interpret(cmd, reply))
  }
}

=== FILE: utils.dfy ===
/**
 * The platform's utilities: the host validation the configuration flow
 * applies to the controller's address, and the sort key that orders
 * attribute values with `None` first.
 *
 * `host_valid` first asks Python's `ipaddress.ip_address` for the address
 * version and compares it with `(4 or 6)`, which Python evaluates to 4; when
 * the host is no IP address it falls back to a per-label character check.
 * The IP grammars below follow `ipaddress.IPv4Address` and
 * `ipaddress.IPv6Address` as Python 3.9 and later parse strings.
 */
module Utils {
  import opened Wrappers

  /** Python's `s.split(sep)` for a one-character separator. */
  function Split(s: string, sep: char): (parts: seq<string>)
    ensures |parts| >= 1
    ensures forall i :: 0 <= i < |parts| ==> sep !in parts[i]
    ensures parts[0] <= s
    ensures |parts| > 1 ==> sep in s
    decreases |s|
  {
    if |s| == 0 then [""]
    else
      var rest := Split(s[1..], sep);
      if s[0] == sep then [""] + rest
      else [[s[0]] + rest[0]] + rest[1..]
  }

  /** Python's `sep.join(parts)`. */
  function Join(parts: seq<string>, sep: char): string
    requires |parts| >= 1
  {
    if |parts| == 1 then parts[0] else parts[0] + [sep] + Join(parts[1..], sep)
  }

  /** Splitting and joining are inverse: joining the parts gives back the
      string, and splitting a join of separator-free parts gives back the
      parts. */
  lemma {:induction false} SplitJoin(s: string, parts: seq<string>, sep: char)
    requires |parts| >= 1 && forall i :: 0 <= i < |parts| ==> sep !in parts[i]
    ensures Join(Split(s, sep), sep) == s
    ensures Split(Join(parts, sep), sep) == parts
  {
    JoinSplit(s, sep);
    SplitOfJoin(parts, sep);
  }

  lemma {:induction false} JoinSplit(s: string, sep: char)
    ensures Join(Split(s, sep), sep) == s
    decreases |s|
  {
    if |s| > 0 {
      var rest := Split(s[1..], sep);
      JoinSplit(s[1..], sep);
      if s[0] == sep {
        assert Split(s, sep)[1..] == rest;
      } else if |rest| == 1 {
        assert Split(s, sep) == [[s[0]] + rest[0]];
      } else {
        var parts := Split(s, sep);
        assert parts[1..] == rest[1..];
        assert Join(rest, sep) == rest[0] + [sep] + Join(rest[1..], sep);
        assert s == [s[0]] + s[1..];
      }
    }
  }

  /** A string without `sep` splits into itself. */
  lemma {:induction false} SplitWithoutSeparator(s: string, sep: char)
    requires sep !in s
    ensures Split(s, sep) == [s]
    decreases |s|
  {
    if |s| > 0 {
      assert s[0] in s;
      assert forall c :: c in s[1..] ==> c in s;
      SplitWithoutSeparator(s[1..], sep);
      assert [s[0]] + s[1..] == s;
    }
  }

  /** Splitting `a + [sep] + b` for a separator-free `a` yields `a` followed
      by the parts of `b`. */
  lemma {:induction false} SplitAfterFirstSeparator(a: string, b: string, sep: char)
    requires sep !in a
    ensures Split(a + [sep] + b, sep) == [a] + Split(b, sep)
    decreases |a|
  {
    var s := a + [sep] + b;
    if |a| == 0 {
      assert s[1..] == b;
    } else {
      assert a[0] in a;
      assert forall c :: c in a[1..] ==> c in a;
      SplitAfterFirstSeparator(a[1..], b, sep);
      assert s[1..] == a[1..] + [sep] + b;
      assert [a[0]] + a[1..] == a;
    }
  }

  lemma {:induction false} SplitOfJoin(parts: seq<string>, sep: char)
    requires |parts| >= 1 && forall i :: 0 <= i < |parts| ==> sep !in parts[i]
    ensures Split(Join(parts, sep), sep) == parts
    decreases |parts|
  {
    if |parts| == 1 {
      SplitWithoutSeparator(parts[0], sep);
    } else {
      SplitOfJoin(parts[1..], sep);
      SplitAfterFirstSeparator(parts[0], Join(parts[1..], sep), sep);
      assert parts == [parts[0]] + parts[1..];
    }
  }

  /** A character of `Join(parts, sep)` other than `sep` occurs in one of
      the parts. */
  lemma {:induction false} JoinedCharInPart(parts: seq<string>, sep: char, c: char)
    requires |parts| >= 1 && c != sep && c in Join(parts, sep)
    ensures exists i :: 0 <= i < |parts| && c in parts[i]
    decreases |parts|
  {
    if |parts| > 1 {
      var j := Join(parts, sep);
      var k :| 0 <= k < |j| && j[k] == c;
      if k < |parts[0]| {
        assert parts[0][k] == c;
      } else {
        var rest := Join(parts[1..], sep);
        assert j == parts[0] + [sep] + rest;
        assert rest[k - |parts[0]| - 1] == c;
        JoinedCharInPart(parts[1..], sep, c);
        var i :| 0 <= i < |parts[1..]| && c in parts[1..][i];
        assert c in parts[i + 1];
      }
    }
  }

  predicate IsAsciiDigit(c: char) {
    '0' <= c <= '9'
  }

  predicate IsHexDigit(c: char) {
    '0' <= c <= '9' || 'a' <= c <= 'f' || 'A' <= c <= 'F'
  }

  function DigitValue(c: char): nat
    requires IsAsciiDigit(c)
  {
    c as int - '0' as int
  }

  /** The value of a string of ASCII digits, read left to right. */
  function DecimalValue(s: string): nat
    requires forall i :: 0 <= i < |s| ==> IsAsciiDigit(s[i])
  {
    if |s| == 0 then 0 else DecimalValue(s[..|s| - 1]) * 10 + DigitValue(s[|s| - 1])
  }

  /** One dotted-quad octet: 1 to 3 ASCII digits, no leading zero unless it
      is "0", at most 255. */
  predicate IsOctet(o: string) {
    o != ""
    && (forall i :: 0 <= i < |o| ==> IsAsciiDigit(o[i]))
    && |o| <= 3
    && (o == "0" || o[0] != '0')
    && DecimalValue(o) <= 255
  }

  /** What `ipaddress.IPv4Address(s)` accepts: no '/', and exactly four
      valid octets separated by '.'. */
  predicate IsIpv4(s: string) {
    '/' !in s && s != ""
    && var octets := Split(s, '.');
    |octets| == 4 && forall i :: 0 <= i < 4 ==> IsOctet(octets[i])
  }

  /** One group of an IPv6 address: 1 to 4 hexadecimal digits. */
  predicate IsHextet(h: string) {
    1 <= |h| <= 4 && forall i :: 0 <= i < |h| ==> IsHexDigit(h[i])
  }

  /** The arrangement of the groups after the ':'-split: either eight
      groups and no "::", or exactly one "::" that stands for at least one
      zero group, with every written group a valid hextet. */
  predicate Ipv6Layout(parts: seq<string>)
    requires |parts| >= 3
  {
    var n := |parts|;
    if forall i :: 1 <= i < n - 1 ==> parts[i] != "" then
      n == 8 && forall i :: 0 <= i < n ==> IsHextet(parts[i])
    else
      exists k :: 1 <= k < n - 1 && parts[k] == "" && CompressedAt(parts, k)
  }

  /** The groups around a "::" at interior index `k`: no other interior
      group is empty, a leading (trailing) empty group only as part of the
      "::" itself, fewer than eight groups written, and each of them a
      valid hextet. */
  predicate CompressedAt(parts: seq<string>, k: int)
    requires 1 <= k < |parts| - 1
  {
    var n := |parts|;
    var hi := if parts[0] == "" then k - 1 else k;
    var lo := if parts[n - 1] == "" then n - k - 2 else n - k - 1;
    (forall i :: 1 <= i < n - 1 && i != k ==> parts[i] != "")
    && hi == (if parts[0] == "" then 0 else k)
    && lo == (if parts[n - 1] == "" then 0 else n - k - 1)
    && 8 - (hi + lo) >= 1
    && (forall i :: 0 <= i < hi ==> IsHextet(parts[i]))
    && (forall i :: n - lo <= i < n ==> IsHextet(parts[i]))
  }

  /** The address part of an IPv6 string: at least three ':'-groups, a
      trailing dotted quad standing for the last two groups, at most nine
      groups after that, and a valid layout. Only the validity of the
      address matters here, so the two groups a dotted quad stands for are
      represented by "0". */
  predicate Ipv6Address(a: string) {
    a != ""
    && var parts0 := Split(a, ':');
    |parts0| >= 3
    && var last := parts0[|parts0| - 1];
    ('.' in last ==> IsIpv4(last))
    && var parts := if '.' in last then parts0[..|parts0| - 1] + ["0", "0"] else parts0;
    |parts| <= 9 && Ipv6Layout(parts)
  }

  /** What `ipaddress.IPv6Address(s)` accepts: no '/', at most one '%'
      followed by a non-empty scope id, and a valid address before it. */
  predicate IsIpv6(s: string) {
    '/' !in s
    && var pieces := Split(s, '%');
    (|pieces| == 1 || (|pieces| == 2 && pieces[1] != ""))
    && Ipv6Address(pieces[0])
  }

  /** Python's `x or y` on two integers. */
  function PyOr(x: int, y: int): int {
    if x != 0 then x else y
  }

  /** The version `ipaddress.ip_address(s)` reports, or `None` when it
      raises `ValueError`. */
  function IpVersion(s: string): (v: Option<int>)
    ensures v == Some(4) <==> IsIpv4(s)
    ensures v == Some(6) <==> !IsIpv4(s) && IsIpv6(s)
    ensures v.None? <==> !IsIpv4(s) && !IsIpv6(s)
  {
    if IsIpv4(s) then Some(4) else if IsIpv6(s) then Some(6) else None
  }

  /** The label check: a character `[^a-zA-Z\d\-]` would reject. */
  predicate IsLabelChar(c: char) {
    'a' <= c <= 'z' || 'A' <= c <= 'Z' || IsAsciiDigit(c) || c == '-'
  }

  /** Every '.'-separated label is non-empty and holds only letters, digits
      and '-'. */
  predicate LabelsValid(host: string) {
    var labels := Split(host, '.');
    forall i :: 0 <= i < |labels| ==> labels[i] != "" && forall j :: 0 <= j < |labels[i]| ==> IsLabelChar(labels[i][j])
  }

  /** `host_valid` as written: an IP address passes when its version equals
      `(4 or 6)`, which is 4; anything else passes the label check. */
  function HostValid(host: string): (ok: bool)
    ensures IsIpv4(host) ==> ok
    ensures IsIpv6(host) && !IsIpv4(host) ==> !ok
  {
    match IpVersion(host)
    case Some(v) => v == PyOr(4, 6)
    case None => LabelsValid(host)
  }

  /** `host_valid` with the evidently intended test `version in (4, 6)`. */
  function HostValidIntended(host: string): (ok: bool)
    ensures IsIpv4(host) || IsIpv6(host) ==> ok
    ensures !IsIpv4(host) && !IsIpv6(host) ==> (ok <==> LabelsValid(host))
  {
    match IpVersion(host)
    case Some(v) => v == 4 || v == 6
    case None => LabelsValid(host)
  }

  /** A dotted quad also passes the label check. */
  lemma Ipv4PassesLabels(host: string)
    requires IsIpv4(host)
    ensures LabelsValid(host)
  {
    var labels := Split(host, '.');
    forall i, j | 0 <= i < |labels| && 0 <= j < |labels[i]| ensures IsLabelChar(labels[i][j]) {
      assert IsOctet(labels[i]);
    }
  }

  /** An IPv6 address contains a ':', which the label check rejects. */
  lemma Ipv6FailsLabels(host: string)
    requires IsIpv6(host)
    ensures !LabelsValid(host)
  {
    var a := Split(host, '%')[0];
    assert ':' in a;
    var k :| 0 <= k < |a| && a[k] == ':';
    assert host[k] == ':';
    var labels := Split(host, '.');
    JoinSplit(host, '.');
    JoinedCharInPart(labels, '.', ':');
    var i :| 0 <= i < |labels| && ':' in labels[i];
    var j :| 0 <= j < |labels[i]| && labels[i][j] == ':';
    assert !IsLabelChar(labels[i][j]);
  }

  /** No string is both an IPv4 and an IPv6 address, so `ip_address`
      reports version 6 for every IPv6 address. */
  lemma IpFamiliesDisjoint(host: string)
    ensures !(IsIpv4(host) && IsIpv6(host))
    ensures IsIpv6(host) ==> IpVersion(host) == Some(6)
  {
    if IsIpv4(host) && IsIpv6(host) {
      Ipv4PassesLabels(host);
      Ipv6FailsLabels(host);
    }
  }

  /** Because an IPv4 address passes the label check and an IPv6 address
      fails it, `host_valid` as written is exactly the label check: the IP
      parse changes no answer. The intended version accepts exactly the
      label-valid hosts and the IPv6 addresses. */
  lemma {:induction false} HostValidIsLabelCheck(host: string)
    ensures HostValid(host) <==> LabelsValid(host)
    ensures HostValidIntended(host) <==> LabelsValid(host) || IsIpv6(host)
  {
    if IsIpv4(host) {
      Ipv4PassesLabels(host);
    } else if IsIpv6(host) {
      Ipv6FailsLabels(host);
    }
  }

  /** One step of `Split` on a string written as its first character and
      the rest. */
  lemma SplitCons(c: char, s: string, sep: char)
    ensures Split([c] + s, sep)
            == if c == sep then [""] + Split(s, sep) else [[c] + Split(s, sep)[0]] + Split(s, sep)[1..]
  {
    assert ([c] + s)[1..] == s;
  }

  /** The splits of "::1" the IPv6 parse makes. */
  lemma LoopbackSplits()
    ensures Split("::1", '%') == ["::1"]
    ensures Split("::1", ':') == ["", "", "1"]
  {
    assert Join(["::1"], '%') == "::1";
    SplitOfJoin(["::1"], '%');
    assert Join(["", "", "1"], ':') == "::1";
    SplitOfJoin(["", "", "1"], ':');
  }

  /** The IPv6 loopback address "::1" is a valid IPv6 address, which
      `host_valid` as written rejects and the intended version accepts. */
  lemma {:induction false} LoopbackIpv6Rejected()
    ensures exists host :: host == "::1" && IsIpv6(host) && !HostValid(host) && HostValidIntended(host)
  {
    LoopbackSplits();
    var parts := Split("::1", ':');
    assert parts[1] == "";
    assert CompressedAt(parts, 1);
    assert Ipv6Address("::1");
    IpFamiliesDisjoint("::1");
    assert IsIpv6("::1") && !HostValid("::1") && HostValidIntended("::1");
  }

  /** "256.1.1.1" splits into its four dotted parts, the first of which
      is out of octet range. */
  lemma OutOfRangeQuadSplits(host: string)
    requires host == "256.1.1.1"
    ensures Split(host, '.') == ["256", "1", "1", "1"]
    ensures !IsOctet("256")
  {
    assert Join(["256", "1", "1", "1"], '.') == "256.1.1.1";
    SplitOfJoin(["256", "1", "1", "1"], '.');
    assert DecimalValue("256") == 256 by {
      assert "256"[..2] == "25" && "25"[..1] == "2" && "2"[..0] == "";
    }
  }

  /** "256.1.1.1" is no IPv4 address, yet it passes as a host name. */
  lemma {:induction false} OutOfRangeQuadPassesAsHostname(host: string)
    requires host == "256.1.1.1"
    ensures !IsIpv4(host) && HostValid(host)
  {
    OutOfRangeQuadSplits(host);
    var labels := Split(host, '.');
    assert !IsOctet(labels[0]);
    forall i | 0 <= i < |labels|
      ensures labels[i] != "" && forall j :: 0 <= j < |labels[i]| ==> IsLabelChar(labels[i][j])
    {
      assert labels[i] in {"256", "1"};
    }
    HostValidIsLabelCheck(host);
  }

  /** Empty labels fail: the empty host, a leading or trailing '.', and
      "..". */
  lemma {:induction false} EmptyLabelsRejected(name: string)
    ensures !HostValid("")
    ensures !HostValid("." + name) && !HostValid(name + ".")
  {
    HostValidIsLabelCheck("");
    assert Split("", '.') == [""];
    HostValidIsLabelCheck("." + name);
    assert Split("." + name, '.')[0] == "";
    HostValidIsLabelCheck(name + ".");
    TrailingSeparatorEmptyPart(name + ".", '.');
  }

  /** A string ending in `sep` splits into a last part that is empty. */
  lemma {:induction false} TrailingSeparatorEmptyPart(s: string, sep: char)
    requires |s| > 0 && s[|s| - 1] == sep
    ensures Split(s, sep)[|Split(s, sep)| - 1] == ""
    decreases |s|
  {
    if |s| > 1 {
      TrailingSeparatorEmptyPart(s[1..], sep);
    } else {
      assert s[1..] == "";
    }
  }

  /** `none_aware_attrgetter(attr)(item)`: the tuple `(value is not None,
      value)`. */
  datatype SortKey<T> = SortKey(present: bool, value: Option<T>)

  function KeyOf<T>(value: Option<T>): (k: SortKey<T>)
    ensures k.present <==> value.Some?
    ensures k.value == value
  {
    SortKey(value.Some?, value)
  }

  /** Python's `<` on two such tuples: `False < True` decides first; equal
      flags compare the values, and two `None` values are equal, so neither
      key is smaller. */
  predicate KeyLess<T(==)>(a: SortKey<T>, b: SortKey<T>, lt: (T, T) -> bool) {
    if a.present != b.present then !a.present
    else if a.value == b.value then false
    else a.value.Some? && b.value.Some? && lt(a.value.value, b.value.value)
  }

  /** Under the key, `None` sorts before every value, two `None`s tie, and
      two values keep the order of `lt`. */
  lemma NoneSortsFirst<T>(x: T, y: T, lt: (T, T) -> bool)
    requires forall z :: !lt(z, z)
    ensures KeyLess(KeyOf(None), KeyOf(Some(x)), lt) && !KeyLess(KeyOf(Some(x)), KeyOf(None), lt)
    ensures !KeyLess(KeyOf<T>(None), KeyOf(None), lt)
    ensures KeyLess(KeyOf(Some(x)), KeyOf(Some(y)), lt) <==> lt(x, y)
  {
  }

  /** When `lt` is a strict order, so is the key order: it is irreflexive
      and transitive, so sorting by the key is well defined. */
  lemma KeyOrderIsStrict<T>(a: Option<T>, b: Option<T>, c: Option<T>, lt: (T, T) -> bool)
    requires forall z :: !lt(z, z)
    requires forall x, y, z :: lt(x, y) && lt(y, z) ==> lt(x, z)
    ensures !KeyLess(KeyOf(a), KeyOf(a), lt)
    ensures KeyLess(KeyOf(a), KeyOf(b), lt) && KeyLess(KeyOf(b), KeyOf(c), lt) ==> KeyLess(KeyOf(a), KeyOf(c), lt)
  {
  }
}

=== FILE: wrappers.dfy ===
/** Optional values and results with an error side, shared by every module of the model. */
module Wrappers {

  /** Python's `None` or a value. */
  datatype Option<+T> = None | Some(value: T)

  /** A call that either returned a value or raised an error. */
  datatype Result<+T, +E> = Ok(value: T) | Err(error: E) {

    predicate IsFailure() {
      Err?
    }

    function PropagateFailure<U>(): Result<U, E>
      requires Err?
    {
      Err(error)
    }

    function Extract(): T
      requires Ok?
    {
      value
    }
  }
}
